=== FILE: README.md ===
# Resumable file transfer and chat history, modelled in Dafny

This project models the core of a small Java system with two parts. The first is a socket file server and its console client. They support upload, download, listing and ownership-checked deletion. An interrupted upload or download can resume from the byte offset last recorded in a resume ledger, a `name offset` text file that each side keeps. The second part is a chat server. It writes every message to a daily history file, logs edits and deletions in two more files, and rebuilds the day's conversation from the three files.

The model is purely functional. Each handler is a function from a state and its inputs to a new state and the replies. A method with the source's loop shape is proved equal to the closed form. Modules:

- `JavaText`: the parts of `java.lang.String` and `Long` the code relies on.
  - `split` with limit 0 (trailing empty fields dropped) and with a positive limit.
  - `startsWith`, `trim`, `Long.toString` and `Long.parseLong`.
  - Round-trip lemmas for `split` (both forms) and for `Long.toString` with `Long.parseLong`.
  - `trim` is characterised by where its result sits in the text; `startsWith` is defined directly as a prefix test.
- `ResumeLedger`: the resume ledger, covering get/update/clear, the text file it rewrites and how it is read back.
- `Transfer`: the chunked copy loops, on both the sending and the receiving side.
  - `RandomAccessFile` writes at an offset.
  - A byte stream that ends or fails after some bytes.
  - Any read sizes the stream chooses.
  - The ledger entry recorded after each chunk.
- `Negotiation`: the `START` / `RESUME:<n>` tokens.
- `Catalog`: the user list, the `owner,name` metadata file, and files stored at `owner/name` in walk order.
- `FileServer`: the server's handlers, the command loop and a whole session.
- `FileClient`: the client's menu, upload, download and delete.
- `Exchange`: client and server put together, covering whole transfers, resumption, and the places where the name-keyed ledgers go wrong.
- `ChatHistory`: rebuilding the day's history from the message, deletion and edit files.
- `ChatMessages`: posting, editing and deleting chat messages, and the history lines each one writes.

Four behaviours of the code are easy to miss:

- Another user's catalog line for the same name still makes them an owner.
- A download clears the server's ledger entry even when the file ended early.
- An invalid command is answered with `Invalid command.`.
- A catalog line without a comma makes a delete end the session, because indexing field 1 throws.

## Model

| member | source | states |
|---|---|---|
| ResumeLedger.Get | ResumeManager.java:31-33 | a name with no entry reads as offset 0, otherwise its recorded offset |
| ResumeLedger.Update | ResumeManager.java:35-38 | the name now reads as the new offset, every other name reads as before, and the key set gains the name |
| ResumeLedger.Clear | ResumeManager.java:40-43 | the name reads as 0 and leaves the key set; every other name is unchanged |
| ResumeLedger.ClearIdempotent | ResumeManager.java:40-43 | clearing a name twice is the same as clearing it once |
| ResumeLedger.Save | ResumeManager.java:45-52 | one `key offset` line per entry, in the map's iteration order, and nothing else |
| ResumeLedger.SaveLoadRoundTrip | ResumeManager.java:15-29 | reading back what was saved gives the same ledger, whatever the iteration order, when no key contains a space |
| ResumeLedger.Load | ResumeManager.java:15-18 | a missing file gives the empty ledger |
| ResumeLedger.LoadFailsIffBadOffset | ResumeManager.java:22-27 | loading fails exactly when some two-field line has an offset that `parseLong` rejects |
| ResumeLedger.LoadFailsOnBadOffset | ResumeManager.java:24-25 | one bad offset on any line makes the whole load fail |
| ResumeLedger.LoadSkipsMalformed | ResumeManager.java:23-24 | a line that does not split into exactly two fields is ignored |
| ResumeLedger.LaterLineWins | ResumeManager.java:25 | a later line for the same key overrides an earlier one |
| ResumeLedger.LoadedOffsets | ResumeManager.java:22-27 | a successful load holds a key exactly when some well-formed line names it, with the last such line's offset |
| ResumeLedger.LoadLines | ResumeManager.java:20-27 | every key of a successful load is named by some line of the file |
| JavaText.ParseLongOfLongToString | ResumeManager.java:25 | every 64-bit value printed as decimal parses back to itself |
| JavaText.ParseLongMeaning | ResumeManager.java:25 | text that is not an optional `+` or `-` followed by at least one digit fails; digits give their value, a `-` its negation, and a value outside the 64-bit range fails |
| JavaText.SplitOfJoin | ResumeManager.java:23 | splitting two or more fields, joined by a separator they do not contain, gives the fields back when the last one is not empty |
| JavaText.SplitLimitOfJoin | ChatServer.java:83 | a limited split of joined fields gives the fields back; the last one keeps any separators it holds |
| JavaText.SplitLimitCount | ChatServer.java:83 | a limited split has one field more than the separators in the text, capped at the limit |
| JavaText.SplitSecondIsSplit | Server.java:266 | the second field of a line, computed directly, is field 1 of the split, and is absent when the split has fewer than two fields |
| Transfer.Copied | Server.java:148-157 | the bytes copied never pass the declared size; they reach it when the stream holds enough, and otherwise they are all the stream held |
| Transfer.WriteAtBytes | Server.java:145-154 | a write at an offset puts the bytes there, keeps the bytes outside, and zero-fills any gap past the old end |
| Transfer.WriteAt | Server.java:145-154 | an empty write leaves the file as it was; otherwise the file ends at the later of its old end and the end of the write |
| Transfer.WriteAtConcat | Server.java:150-157 | writing two chunks one after the other is the same as writing them together |
| Transfer.ResumedWrite | Server.java:145-157 | resuming from an offset where the partial file agrees with the source rebuilds the source, and keeps any older longer tail |
| Transfer.ChunkedBounds | Server.java:150-156 | every recorded offset is above the start and at most the final total, and the last one is the final total |
| Transfer.ChunkSteps | Server.java:150-156 | each recorded offset exceeds the previous one, or the start, by at least 1 and at most the read limit |
| Transfer.Recorded | Server.java:156 | after the chunks, the ledger holds the last chunk's total for the name, and is unchanged when no chunk arrived |
| Transfer.Receive | Server.java:145-158 | the total is at least the start, never passes the larger of the start and the declared size, and never exceeds what the stream held; the copy faults exactly when the stream fails short of the size; the ledger records the total for the name when any byte arrived and no other name changes |
| Transfer.ReceiveLoop | Server.java:145-158 | the receive loop, for any read sizes the stream picks, computes the closed form and records chunks of at most one buffer each |
| Transfer.ServerReceiveLoop | Server.java:145-158 | the server's loop with its 4096-byte buffer is the closed form, and each chunk it records adds at least 1 and at most 4096 bytes |
| Transfer.SendLoop | Client.java:125-140 | the send loop, for any read sizes, sends the source from the offset and records each chunk's total |
| Transfer.Send | Client.java:125-140 | the bytes sent are the source from the offset on; nothing is sent from past its end; after any chunk the name records the full length and no other name changes |
| Negotiation.OfferedStart | Server.java:136-143 | the server resumes only from a positive recorded offset when the file is present; otherwise it starts from 0 |
| Negotiation.Offer | Server.java:136-143 | the token starts with `RESUME:` exactly when the recorded offset is positive and the file exists, and is `START` otherwise |
| Negotiation.StartOffset | Client.java:117-123 | any token not starting with `RESUME:` means offset 0; a parsed offset fits in 64 bits |
| Negotiation.OfferAgreed | Client.java:117-123 | the client reads back exactly the offset the server offered |
| Negotiation.StartOffsetOfResumeToken | Server.java:139 | `RESUME:<n>` is read as `n` |
| Negotiation.BareResumeFails | Client.java:121 | a bare `RESUME:` has no field 1 and fails |
| Catalog.AddUser | Server.java:65-70 | the name is listed afterwards; the list only grows by the name, at the end |
| Catalog.AddUserIdempotent | Server.java:67 | adding a user twice is the same as adding once, and a duplicate-free list stays duplicate-free |
| Catalog.OwnerAfterAppend | Server.java:251-262 | after a user's line is appended, the owners are exactly the earlier owners plus that user for that name |
| Catalog.IsOwner | Server.java:251-257 | a user owns a name only through a two-field line, so an owned pair holds no comma in either part and the name is not empty |
| Catalog.AppendMetadata | Server.java:259-262 | one line is added at the end and the earlier lines stay; for a comma-free user and non-empty comma-free name it splits back into exactly the user and the name |
| Catalog.RemoveMetadata | Server.java:264-268 | a successful removal never grows the file, and every line it keeps has a second field other than the name |
| Catalog.RemoveMetadataFails | Server.java:264-268 | removal fails exactly when some line has no second field |
| Catalog.RemoveMetadataKeeps | Server.java:264-268 | after removal, a line is kept exactly when its second field is not the name |
| Catalog.RemovedNotOwned | Server.java:264-268 | after removal nobody owns the name |
| Catalog.AppendKeepsWellFormed | Server.java:259-262 | appending a recordable line keeps every line two-field |
| Catalog.RemoveKeepsWellFormed | Server.java:264-268 | on a well-formed catalog removal succeeds and stays well-formed |
| Catalog.FindFile | Server.java:238-249 | the first stored file with that name in walk order, or none when no file has it |
| Catalog.Store | Server.java:134-158 | the path exists afterwards with the new bytes; every other file keeps its place and content; an existing path is rewritten in place with no file added, and a new path is one new unlocked file at the end of the walk |
| Catalog.StoreKeepsUniquePaths | Server.java:132-134 | storing never creates a second file at the same path |
| Catalog.WithoutKeepsUniquePaths | Server.java:229 | deleting a file keeps paths unique |
| FileServer.HandleUpload | Server.java:128-163 | the first reply is the negotiated `RESUME:<n>` or `START` token; the file exists afterwards and every file at another path keeps its place and content; the session ends exactly when the stream fails before the size; on success the name's ledger entry is cleared, the catalog gets the user's line and the last reply is the success text |
| FileServer.UploadContent | Server.java:145-157 | the stored file is the old content with the received bytes written at the negotiated offset |
| FileServer.UploadFaultKeepsOffset | Server.java:150-157 | a failing stream ends the session with the offset reached in the ledger |
| FileServer.HandleDownload | Server.java:165-201 | an unknown name gets `FILE_NOT_FOUND` and nothing changes; otherwise `FILE_FOUND` and the length come first, files and catalog are untouched, and the entry is cleared |
| FileServer.DownloadSends | Server.java:177-197 | the bytes sent are the file from the offset the client asked for |
| FileServer.HandleList | Server.java:203-213 | the count, then every stored name in walk order, with nothing changed |
| FileServer.HandleDelete | Server.java:215-236 | a non-owner gets `PERMISSION_DENIED` with nothing changed; on success the first file with the name in walk order is gone and nothing else, the catalog is exactly what `removeMetadata` leaves, the ledger is the old one with the name cleared, and nobody owns the name; an owner asking for a missing name gets `FILE_NOT_FOUND` and a file the system cannot delete gets `DELETION_FAILED`, both with nothing changed; a catalog line without a second field ends the session with the file already gone and catalog and ledger as they were |
| FileServer.DeleteReachesOtherOwner | Server.java:218-230 | an owner of `x` deletes another user's `x` that comes first in walk order |
| FileServer.OwnerDeleteSucceeds | Server.java:215-236 | the owner of an unlocked file that exists always gets `DELETION_SUCCESS` |
| FileServer.ParseCommand | Server.java:95-113 | exactly the choices `1` to `5` select a command |
| FileServer.HandleRequest | Server.java:93-113 | `1` to `4` run the upload, download, list and delete handlers on the frames that follow; any other choice gets `Invalid command.` and the session goes on; `5` answers `Goodbye!` and ends it; frames that do not fit the choice end the session |
| FileServer.Serve | Server.java:93-114 | the command loop never changes the users, and a session still open after the requests met no `5` among them |
| FileServer.Session | Server.java:82-92 | the user is registered and greeted first |
| FileServer.ServeIgnoresAfterEnd | Server.java:108-116 | once the session has ended, later requests change nothing |
| FileServer.ExitEndsSession | Server.java:108-110 | a first `5` ends the session with only `Goodbye!` |
| FileServer.ServeKeepsConsistent | Server.java:93-113 | a session keeps users distinct, paths unique and catalog lines two-field |
| FileServer.SessionKeepsConsistent | Server.java:82-113 | the same holds for a whole session, registration included |
| FileClient.MenuChoice | Client.java:70 | the choice is the stretch of the line left once every leading and trailing blank is cut: it sits in the line with only blanks before and after it, and neither starts nor ends with a blank |
| FileClient.MenuIgnoresBlanks | Client.java:70-74 | any blanks before the line and any, independently chosen, after it leave the choice unchanged |
| FileClient.ClientCommand | Client.java:74-93 | exactly `1` to `5` select upload, download, list, delete and exit, in that order; anything else selects nothing |
| FileClient.MenuStep | Client.java:70-94 | exit reads nothing and leaves the menu; an invalid choice reads exactly one reply and goes on, or stops when none comes; any other command reads nothing here and goes on |
| FileClient.MenuMatchesServer | Client.java:70-94 | client and server pick the same command for a trimmed line; an invalid choice consumes exactly the server's single `Invalid command.`, and `5` leaves the menu without reading the server's `Goodbye!` |
| FileClient.ClientUpload | Client.java:103-150 | a missing local file changes nothing; the entry is cleared after the exact success text; other names' entries are untouched |
| FileClient.UploadOtherTextKeepsEntry | Client.java:143-148 | any other completion text leaves the entry at the file's length |
| FileClient.ClientDownload | Client.java:152-198 | after `FILE_NOT_FOUND` nothing changes; otherwise the token follows the client's own ledger, the file is created, and a download that does not fail clears the entry |
| FileClient.ShortDownloadForgetsOffset | Client.java:183-196 | a stream that ends early without failing still clears the entry and keeps the partial file |
| FileClient.FailedDownloadKeepsOffset | Client.java:183-192 | a failing stream keeps the offset reached |
| FileClient.ClientDelete | Client.java:213-235 | only `DELETION_SUCCESS` clears the client's entry |
| Exchange.UploadRoundTrip | Server.java:128-163 | a complete upload, fresh or resumed from a consistent partial copy, stores exactly the source and clears both ledgers |
| Exchange.ResumeAfterFault | Server.java:136-157 | an upload cut off after `k` bytes is offered `RESUME:k` next time, and that attempt completes the file |
| Exchange.ReuploadKeepsStaleTail | Server.java:145-146 | re-uploading a shorter file from the start keeps the old bytes past its end |
| Exchange.ResumeIgnoresOwner | Server.java:136-139 | another user's offset for the same name makes an upload resume over bytes it never sent |
| Exchange.DownloadRoundTrip | Client.java:152-198 | a complete download, fresh or resumed, leaves exactly the server's file and clears the client's entry |
| Exchange.DownloadDropsUploadOffset | Server.java:199 | a download clears an interrupted upload's offset for the same name, so the next upload starts over |
| Exchange.UploadEntrySkewsDownload | Client.java:136-172 | an upload whose completion never arrives makes a later download of that name resume at the file's full length |
| ChatHistory.ParseBase | ChatServer.java:83-88 | a line is rejected exactly when it holds fewer than four `:`; the id, sender and status read from it hold no `:` |
| ChatHistory.ParseBaseOfJoin | ChatServer.java:83-88 | a joined line reads back field for field; the content keeps its own colons |
| ChatHistory.ParseDeleted | ChatServer.java:105-108 | a line names a deleted id exactly when it holds a `:`, and the id is the text before the first one |
| ChatHistory.ParseModifiedOfLine | ChatServer.java:126-129 | an edit line reads back as the id and the new content, when the earlier fields hold no `:` |
| ChatHistory.ParseModified | ChatServer.java:126-129 | an edit line is ignored exactly when it holds fewer than four `:`; the id read from it holds no `:` |
| ChatHistory.ColonInOldContentLeaks | ChatServer.java:126-129 | an example: editing a message whose old content is `a:b` into `c` reads back as the new content `b:c`, because the `:` in the old content shifts the fields |
| ChatHistory.Put | ChatServer.java:91 | insertion order keeps the first position of a key and appends a new key at the end |
| ChatHistory.Collect | ChatServer.java:79-94 | the message history gives an insertion-ordered map with each id once, no more ids than lines, and an entry for the id of every live line |
| ChatHistory.CollectKeys | ChatServer.java:79-94 | the collected ids are exactly those with some line that is not deleted |
| ChatHistory.CollectRanked | ChatServer.java:79-94 | ids appear in the order of their first live line |
| ChatHistory.CollectText | ChatServer.java:91 | each id shows its last live line as `sender: content` |
| ChatHistory.DeletedIdsMeaning | ChatServer.java:101-114 | an id is deleted exactly when some deletion line names it |
| ChatHistory.SurvivingMeaning | ChatServer.java:117-119 | removal keeps exactly the ids not deleted, without duplicates |
| ChatHistory.SurvivingKeepsRank | ChatServer.java:117-119 | removal keeps the remaining ids in order |
| ChatHistory.RemoveAll | ChatServer.java:117-119 | removal keeps exactly the ids not deleted, with their texts |
| ChatHistory.SenderOfText | ChatServer.java:132 | the sender read back from `sender: content` is the sender, when it holds no `:` |
| ChatHistory.SenderOf | ChatServer.java:132 | the sender is the text before the first `: `, or the whole text when it holds none |
| ChatHistory.EditsKeepKeys | ChatServer.java:122-140 | edits never add or reorder ids |
| ChatHistory.EditsOnKey | ChatServer.java:131-134 | a shown id ends with its last edit's content, or its own content without one |
| ChatHistory.ApplyEdits | ChatServer.java:122-140 | edits keep the ids, their order and which ids are present |
| ChatHistory.MergedKeys | ChatServer.java:69-140 | the history shows exactly the ids with a live line and no deletion line, in order of first appearance |
| ChatHistory.MergedText | ChatServer.java:69-140 | each shown id reads as its last live line's sender, then its last edit or its own content |
| ChatHistory.RenderJoins | ChatServer.java:143-148 | the shown texts are joined by line breaks, with blanks trimmed only at the two ends |
| ChatHistory.RenderEmpty | ChatServer.java:143-148 | an empty history renders as the empty text |
| ChatHistory.Render | ChatServer.java:143-148 | the result is the line-joined texts with the blanks at both ends cut off and nothing else removed |
| ChatHistory.Merged | ChatServer.java:69-140 | the rebuilt history is a valid insertion-ordered map holding no id named by a deletion line |
| ChatHistory.LoadHistory | ChatServer.java:69-149 | the day's history is the shown texts joined by line breaks with the ends trimmed, and empty when nothing is shown |
| ChatMessages.FormatMessage | ChatServer.java:332-340 | a history line starts with the id and a `:` and holds at least four `:`, so it always parses as a five-field line |
| ChatMessages.FormatThenParse | ChatServer.java:332-340 | a formatted message reads back with its id, sender, status and content; a deleted one shows `deleted` and `null` |
| ChatMessages.HandleNew | ChatServer.java:217-223 | the new message is stored live under its id and is the only key added; the one line appended is its formatted line; the author gets no reply and everyone gets `<user> (ID: <id>) : <content>`; the other messages and the other two files are unchanged |
| ChatMessages.PostedMessageShown | ChatServer.java:217-223 | a posted message that is neither deleted nor edited shows in the history as `sender: content` |
| ChatMessages.ParseModify | ChatServer.java:226-230 | an edit command is rejected exactly when it holds fewer than two `:`; otherwise the line is its first field, the id and the new content joined by `:`, and the id holds no `:` |
| ChatMessages.ParseModifyOfCommand | ChatServer.java:226-230 | `MODIFY:<id>:<content>` reads back as that id and content when the id holds no `:`, whatever the content holds |
| ChatMessages.HandleModify | ChatServer.java:225-246 | a malformed line is ignored; an unknown or deleted id gets its error with nothing changed; no other message changes |
| ChatMessages.ModifyLive | ChatServer.java:239-242 | editing a live message changes its content only and logs one edit line |
| ChatMessages.ModifyRecorded | ChatServer.java:278-285 | for a message stored under its own id, the logged edit reads back as that id's last edit with the new content |
| ChatMessages.SaveDeleted | ChatServer.java:287-327 | a deletion line is appended only when no line already starts with `id:`; afterwards one does |
| ChatMessages.SaveDeletedOnce | ChatServer.java:306-315 | saving a deletion again changes nothing, and an id is never logged twice |
| ChatMessages.ParseDelete | ChatServer.java:249-252 | a delete command names an id exactly when it holds a `:`, and the id is everything after the first one |
| ChatMessages.ParseDeleteOfCommand | ChatServer.java:249-252 | `DELETE:<id>` reads back as that id, whatever it holds |
| ChatMessages.HandleDelete | ChatServer.java:248-267 | an unknown id or a message already deleted gets its error with nothing changed; no other message changes |
| ChatMessages.DeleteLive | ChatServer.java:254-263 | deleting a live message sets only its flag, and the history no longer shows it |
| ChatMessages.NamedLineParses | ChatServer.java:311 | a deletion line starting with `id:` is read back as that id |
| ChatMessages.DeletedStaysDeleted | ChatServer.java:233-262 | once deleted, a message stays deleted with its content through any later edits and deletions |
| ChatMessages.RunKeepsKeyed | ChatServer.java:219-220 | every message stays stored under its own id |

## Left out

- Sockets and their framing are left out. This covers `writeUTF`/`readUTF`, `writeLong`/`readInt`, `flush` and the blocking they imply. Replies are a list of texts, numbers and byte blocks. The bytes arriving are a sequence that ends cleanly or with an error.
- FileServer.Serve: a clean end of the upload stream before the declared size is followed by more requests in the model. In the source the next `readUTF` at Server.java:94 then throws `EOFException` and the session ends, so no request ever follows such an end.
- Socket write errors are left out. Only the inbound stream can fail, so an upload's bytes are assumed to reach the socket.
- Threads are left out, along with the one handler per connection, the shared ledger and catalog across sessions, and `synchronized`. Each handler runs alone on one state.
- Ledger, catalog and user-file write failures (`IOException` from `Files.write`/`FileWriter`) are left out. Every write succeeds.
- Files are lines, not bytes. `readLine`, `readAllLines` and `newLine` are not modelled, so names and contents holding line breaks are not covered.
- Transfer.WriteAtBytes: the bytes of a gap left by a write past the old end are defined by the platform for `RandomAccessFile`; the model reads them as zeros, which is what Linux file systems return.
- Transfer.WriteAt: the same zero-filled gap applies here, for the same reason.
- FileServer.HandleUpload: a file name of `""` or `.` names the user's directory itself, so `new RandomAccessFile` throws and the session ends; the model stores a file under that name instead.
- Transfer.ReceiveLoop: the client's `BLOCK_SIZE` is taken to be at least 1. With 0, every read asks for 0 bytes and returns 0, so the client's download loop never ends. A negative value makes `new byte[...]` throw `NegativeArraySizeException`.
- Transfer.SendLoop: the same bound on `BLOCK_SIZE` is assumed for the client's upload loop, which never ends with 0 and throws with a negative value.
- `Files.walk` order is not specified in the source. Stored files are a sequence in walk order. A new upload path goes at the end.
- `File.delete()` failing is a flag on each stored file. The model does not say why the call fails.
- The directory layout and path resolution are left out: `UPLOAD_DIR`, `Downloads`, configuration loading, ports and `createDirectory`. A name containing `/` or `..` is not resolved as a path.
- The client's local file system is a parameter. Uploads take the local file's content or its absence. Downloads take the download directory as a map.
- FileClient.ClientUpload: when the local file is missing, the client sends nothing more, so the server reads the client's next menu choice as the file name and the frames after it as the size. This desynchronisation of the two sides is left out.
- `toLowerCase` in the command switch is modelled as exact comparison with `1` to `5`. Lower-casing cannot produce those digits from any other text.
- JavaText.ParseLong: the model's `ParseLong` accepts ASCII digits only; Java's `Long.parseLong` also accepts other Unicode decimal digits.
- `printProgressBar`, console messages and `listFiles` on the client are left out. The client's listing only prints what the server sends.
- The chat server's connection loop is left out, as are the `HISTORY` command, `broadcast`, `sendMessage` and `getHistory`. Broadcast texts are returned, not sent.
- Message ids and clock readings are parameters. These are `UUID.randomUUID`, `System.currentTimeMillis` and the date in the file names.
- A missing history file reads as no lines. An `IOException` part way through reading one is left out.
- The deleted-id set is applied as a filter. The order in which `HashSet` iterates does not matter, because removals commute.
- The audio client and server and the graphical clients are not part of this model.

=== FILE: catalog.dfy ===
/** The file server's persistent records: the user list (`users.txt`), the
    ownership catalog (`file-metadata.txt`, one `user,file` line per upload)
    and the upload tree, seen as the regular files it holds in walk order. */
module Catalog {
  import opened JavaText
  import opened Transfer

  // ---------------------------------------------------------------------------
  // Users

  /** `addUser`: append the name unless the list already holds it. */
  function AddUser(users: seq<string>, name: string): (r: seq<string>)
    ensures name in r
    ensures |users| <= |r| <= |users| + 1 && r[..|users|] == users
    ensures forall u :: u in r <==> u in users || u == name
  {
    if name in users then users else users + [name]
  }

  predicate Distinct(xs: seq<string>) {
    forall i, j :: 0 <= i < j < |xs| ==> xs[i] != xs[j]
  }

  /** Adding a user twice is adding it once, and the list never repeats a
      name. */
  lemma AddUserIdempotent(users: seq<string>, name: string)
    ensures AddUser(AddUser(users, name), name) == AddUser(users, name)
    ensures Distinct(users) ==> Distinct(AddUser(users, name))
  {
  }

  // ---------------------------------------------------------------------------
  // The ownership catalog

  function MetadataLine(user: string, name: string): string {
    user + "," + name
  }

  /** `appendMetadata`: one more `user,file` line at the end, which reads
      back as the pair when neither part holds a comma. */
  function AppendMetadata(lines: seq<string>, user: string, name: string): (r: seq<string>)
    ensures |r| == |lines| + 1 && r[..|lines|] == lines
    ensures Recordable(user, name) ==> Split(r[|lines|], ',') == [user, name]
  {
    var r := lines + [MetadataLine(user, name)];
    if Recordable(user, name) then
      SplitPair(user, ',', name);
      assert MetadataLine(user, name) == user + [','] + name;
      r
    else r
  }

  /** `isOwner`: some line splits on `,` into exactly `[user, name]`. Since
      `split` never returns a field holding the separator, nor an empty last
      field, only recordable pairs are ever owned. */
  predicate IsOwner(lines: seq<string>, user: string, name: string): (owns: bool)
    ensures owns ==> Recordable(user, name)
  {
    PairsRecordable(lines);
    exists i :: 0 <= i < |lines| && Split(lines[i], ',') == [user, name]
  }

  /** Every line that splits into two fields gives a recordable pair. */
  lemma PairsRecordable(lines: seq<string>)
    ensures forall i :: 0 <= i < |lines| && |Split(lines[i], ',')| == 2 ==>
              Recordable(Split(lines[i], ',')[0], Split(lines[i], ',')[1])
  {
    forall i | 0 <= i < |lines| && |Split(lines[i], ',')| == 2
      ensures Recordable(Split(lines[i], ',')[0], Split(lines[i], ',')[1])
    {
      SplitShape(lines[i], ',');
    }
  }

  /** A name that can be recorded and found again: no comma in the user or
      the file name, and a non-empty file name. */
  predicate Recordable(user: string, name: string) {
    ',' !in user && ',' !in name && name != ""
  }

  /** After `appendMetadata(u, f)` the owners are the old ones plus `(u, f)`,
      for recordable names. */
  lemma OwnerAfterAppend(lines: seq<string>, user: string, name: string, u: string, f: string)
    requires Recordable(user, name)
    ensures IsOwner(AppendMetadata(lines, user, name), u, f)
            <==> IsOwner(lines, u, f) || (u == user && f == name)
  {
    var r := AppendMetadata(lines, user, name);
    SplitPair(user, ',', name);
    assert MetadataLine(user, name) == user + [','] + name;
    assert r[|lines|] == MetadataLine(user, name);
    if IsOwner(r, u, f) {
      var i :| 0 <= i < |r| && Split(r[i], ',') == [u, f];
      if i < |lines| {
        assert r[i] == lines[i];
      }
    }
    if IsOwner(lines, u, f) {
      var i :| 0 <= i < |lines| && Split(lines[i], ',') == [u, f];
      assert r[i] == lines[i];
    }
  }

  /** The second `,`-field of a catalog line; `None` when the line has fewer
      than two fields, where `removeMetadata` indexes out of bounds. */
  function SecondField(line: string): Option<string> {
    SplitSecond(line, ',')
  }

  /** `removeMetadata`: drop every line whose second field is `name`,
      whoever the owner, keeping the others in order. The predicate runs
      over every line before anything is removed, so one line with fewer than
      two fields makes the whole call fail and the catalog stays as it was. */
  function RemoveMetadata(lines: seq<string>, name: string): (r: Result<seq<string>>)
    ensures r.Ok? ==> |r.value| <= |lines|
    ensures r.Ok? ==> forall j :: 0 <= j < |r.value| ==> SecondField(r.value[j]).Some? && SecondField(r.value[j]).value != name
    decreases |lines|
  {
    if |lines| == 0 then Ok([])
    else
      match RemoveMetadata(lines[..|lines| - 1], name)
      case Err(e) => Err(e)
      case Ok(kept) =>
        match SecondField(lines[|lines| - 1])
        case None => Err("ArrayIndexOutOfBoundsException")
        case Some(f) => Ok(if f == name then kept else kept + [lines[|lines| - 1]])
  }

  /** Removal fails exactly when some line has fewer than two fields. */
  lemma {:induction false} RemoveMetadataFails(lines: seq<string>, name: string)
    ensures RemoveMetadata(lines, name).Err?
            <==> exists i :: 0 <= i < |lines| && SecondField(lines[i]).None?
    decreases |lines|
  {
    if |lines| > 0 {
      var init := lines[..|lines| - 1];
      var last := lines[|lines| - 1];
      RemoveMetadataFails(init, name);
      RemoveMetadataLast(lines, name);
      if RemoveMetadata(init, name).Err? {
        var i :| 0 <= i < |init| && SecondField(init[i]).None?;
        assert lines[i] == init[i];
      } else if SecondField(last).Some? {
        forall i | 0 <= i < |lines|
          ensures SecondField(lines[i]).Some?
        {
          if i < |init| { assert lines[i] == init[i]; }
        }
      }
    }
  }

  /** When removal succeeds the kept lines are exactly the lines whose
      second field is not `name`. */
  lemma {:induction false} RemoveMetadataKeeps(lines: seq<string>, name: string)
    requires RemoveMetadata(lines, name).Ok?
    ensures forall x :: x in RemoveMetadata(lines, name).value <==> x in lines && SecondField(x) != Some(name)
    decreases |lines|
  {
    if |lines| > 0 {
      var init := lines[..|lines| - 1];
      var last := lines[|lines| - 1];
      RemoveMetadataLast(lines, name);
      RemoveMetadataKeeps(init, name);
      assert lines == init + [last];
      assert forall x :: x in lines <==> x in init || x == last;
    }
  }

  /** Removal works line by line: removing from two blocks of lines is
      removing from each and putting the results together, so the kept
      lines stay in their order. */
  lemma {:induction false} RemoveMetadataConcat(a: seq<string>, b: seq<string>, name: string)
    requires RemoveMetadata(a, name).Ok? && RemoveMetadata(b, name).Ok?
    ensures RemoveMetadata(a + b, name) == Ok(RemoveMetadata(a, name).value + RemoveMetadata(b, name).value)
    decreases |b|
  {
    if |b| == 0 {
      assert a + b == a;
      assert RemoveMetadata(b, name) == Ok([]);
      assert RemoveMetadata(a, name).value + [] == RemoveMetadata(a, name).value;
    } else {
      var init := b[..|b| - 1];
      var last := b[|b| - 1];
      var ab := a + b;
      assert ab[..|ab| - 1] == a + init;
      assert ab[|ab| - 1] == last;
      RemoveMetadataLast(ab, name);
      RemoveMetadataLast(b, name);
      var ra := RemoveMetadata(a, name).value;
      assert RemoveMetadata(init, name).Ok?;
      var ri := RemoveMetadata(init, name).value;
      RemoveMetadataConcat(a, init, name);
      assert RemoveMetadata(a + init, name) == Ok(ra + ri);
      var f := SecondField(last).value;
      if f != name {
        assert (ra + ri) + [last] == ra + (ri + [last]);
      }
    }
  }

  lemma RemoveMetadataLast(lines: seq<string>, name: string)
    requires |lines| > 0
    ensures RemoveMetadata(lines, name)
            == match RemoveMetadata(lines[..|lines| - 1], name)
               case Err(e) => Err(e)
               case Ok(kept) =>
                 match SecondField(lines[|lines| - 1])
                 case None => Err("ArrayIndexOutOfBoundsException")
                 case Some(f) => Ok(if f == name then kept else kept + [lines[|lines| - 1]])
  {
  }

  /** After a successful removal nobody owns `name` any more. */
  lemma RemovedNotOwned(lines: seq<string>, name: string, user: string)
    requires RemoveMetadata(lines, name).Ok?
    ensures !IsOwner(RemoveMetadata(lines, name).value, user, name)
  {
    var r := RemoveMetadata(lines, name).value;
    RemoveMetadataKeeps(lines, name);
    forall i | 0 <= i < |r|
      ensures Split(r[i], ',') != [user, name]
    {
      assert r[i] in r;
      SplitSecondIsSplit(r[i], ',');
    }
  }

  /** Every line of the catalog has at least two fields, which is what
      keeps `removeMetadata` from failing. */
  predicate WellFormed(lines: seq<string>) {
    forall i :: 0 <= i < |lines| ==> SecondField(lines[i]).Some?
  }

  lemma AppendKeepsWellFormed(lines: seq<string>, user: string, name: string)
    requires WellFormed(lines) && Recordable(user, name)
    ensures WellFormed(AppendMetadata(lines, user, name))
  {
    SplitPair(user, ',', name);
    assert MetadataLine(user, name) == user + [','] + name;
    var r := AppendMetadata(lines, user, name);
    forall i | 0 <= i < |r|
      ensures SecondField(r[i]).Some?
    {
      if i < |lines| {
        assert r[i] == lines[i];
      } else {
        SplitSecondIsSplit(r[i], ',');
      }
    }
  }

  lemma RemoveKeepsWellFormed(lines: seq<string>, name: string)
    requires WellFormed(lines)
    ensures RemoveMetadata(lines, name).Ok?
    ensures WellFormed(RemoveMetadata(lines, name).value)
  {
    RemoveMetadataFails(lines, name);
    RemoveMetadataKeeps(lines, name);
    var r := RemoveMetadata(lines, name).value;
    forall i | 0 <= i < |r|
      ensures SecondField(r[i]).Some?
    {
      assert r[i] in r;
      var j :| 0 <= j < |lines| && lines[j] == r[i];
    }
  }

  // ---------------------------------------------------------------------------
  // The upload tree

  /** A regular file under the upload directory: `<owner>/<name>`; `locked`
      stands for a file the file system refuses to delete. */
  datatype StoredFile = StoredFile(owner: string, name: string, content: seq<byte>, locked: bool)

  /** `findFile`: the first file in walk order whose bare name is `name`,
      whoever owns it. */
  function FindFile(files: seq<StoredFile>, name: string): (r: Option<nat>)
    ensures r.Some? ==> r.value < |files| && files[r.value].name == name
    ensures r.Some? ==> forall j :: 0 <= j < r.value ==> files[j].name != name
    ensures r.None? ==> forall j :: 0 <= j < |files| ==> files[j].name != name
    decreases |files|
  {
    if |files| == 0 then None
    else if files[0].name == name then Some(0)
    else match FindFile(files[1..], name)
      case None => None
      case Some(i) => Some(i + 1)
  }

  /** The file at `<owner>/<name>`, if it exists. */
  function PathIndex(files: seq<StoredFile>, owner: string, name: string): (r: Option<nat>)
    ensures r.Some? ==> r.value < |files| && files[r.value].owner == owner && files[r.value].name == name
    ensures r.Some? ==> forall j :: 0 <= j < r.value ==> !(files[j].owner == owner && files[j].name == name)
    ensures r.None? ==> forall j :: 0 <= j < |files| ==> !(files[j].owner == owner && files[j].name == name)
    decreases |files|
  {
    if |files| == 0 then None
    else if files[0].owner == owner && files[0].name == name then Some(0)
    else match PathIndex(files[1..], owner, name)
      case None => None
      case Some(i) => Some(i + 1)
  }

  /** No two files share a path. */
  predicate UniquePaths(files: seq<StoredFile>) {
    forall i, j :: 0 <= i < j < |files| ==>
      !(files[i].owner == files[j].owner && files[i].name == files[j].name)
  }

  /** The contents of `<owner>/<name>` before a write: the existing bytes, or
      nothing for a file `RandomAccessFile` is about to create. */
  function Existing(files: seq<StoredFile>, owner: string, name: string): seq<byte> {
    match PathIndex(files, owner, name)
    case Some(i) => files[i].content
    case None => []
  }

  /** Put `content` at `<owner>/<name>`: in place if the file exists, else as
      a new file at the end of the walk. */
  function Store(files: seq<StoredFile>, owner: string, name: string, content: seq<byte>): (r: seq<StoredFile>)
    ensures PathIndex(r, owner, name).Some?
    ensures r[PathIndex(r, owner, name).value].content == content
    ensures |r| >= |files|
    ensures forall j :: 0 <= j < |files| ==> r[j].owner == files[j].owner && r[j].name == files[j].name
    ensures forall j :: 0 <= j < |files| && !(files[j].owner == owner && files[j].name == name) ==> r[j] == files[j]
    ensures PathIndex(files, owner, name).Some? ==> |r| == |files|
    ensures PathIndex(files, owner, name).None? ==> r == files + [StoredFile(owner, name, content, false)]
  {
    match PathIndex(files, owner, name)
    case Some(i) =>
      var r := files[i := files[i].(content := content)];
      SamePathIndex(files, r, owner, name);
      r
    case None =>
      var r := files + [StoredFile(owner, name, content, false)];
      assert r[|files|].owner == owner && r[|files|].name == name;
      r
  }

  /** `PathIndex` looks at paths only. */
  lemma SamePathIndex(a: seq<StoredFile>, b: seq<StoredFile>, owner: string, name: string)
    requires |a| == |b|
    requires forall j :: 0 <= j < |a| ==> a[j].owner == b[j].owner && a[j].name == b[j].name
    ensures PathIndex(a, owner, name) == PathIndex(b, owner, name)
  {
  }

  lemma StoreKeepsUniquePaths(files: seq<StoredFile>, owner: string, name: string, content: seq<byte>)
    requires UniquePaths(files)
    ensures UniquePaths(Store(files, owner, name, content))
  {
  }

  /** The tree without its `i`-th file. */
  function Without(files: seq<StoredFile>, i: nat): (r: seq<StoredFile>)
    requires i < |files|
    ensures |r| == |files| - 1
    ensures forall j :: 0 <= j < |r| ==> r[j] == files[if j < i then j else j + 1]
  {
    files[..i] + files[i + 1..]
  }

  lemma WithoutKeepsUniquePaths(files: seq<StoredFile>, i: nat)
    requires i < |files| && UniquePaths(files)
    ensures UniquePaths(Without(files, i))
  {
  }
}

=== FILE: chat_history.dfy ===
/** The chat server's day history: the three history files (every message
    as sent, the deletions, the edits) merged into the text a joining user is
    shown. Each file is a sequence of lines; a missing file reads as no
    lines. */
module ChatHistory {
  import opened JavaText

  const DeletedStatus: string := "deleted"

  // ---------------------------------------------------------------------------
  // Reading the three kinds of line

  /** A line of the message history, `id:time:sender:status:content`, as
      `split(":", 5)` reads it: the content is everything after the fourth
      `:`. */
  datatype BaseRecord = BaseRecord(id: string, sender: string, status: string, content: string)

  function ParseBase(line: string): (r: Option<BaseRecord>)
    ensures r.None? <==> multiset(line)[':'] < 4
    ensures r.Some? ==> ':' !in r.value.id && ':' !in r.value.sender && ':' !in r.value.status
  {
    SplitLimitShape(line, ':', 5);
    SplitLimitCount(line, ':', 5);
    var parts := SplitLimit(line, ':', 5);
    if |parts| < 5 then None else Some(BaseRecord(parts[0], parts[2], parts[3], parts[4]))
  }

  /** Five `:`-joined fields, of which only the last may hold `:`, read back
      as the record they came from. */
  lemma ParseBaseOfJoin(fields: seq<string>)
    requires |fields| == 5 && forall i :: 0 <= i < 4 ==> ':' !in fields[i]
    ensures ParseBase(Join(fields, ':')) == Some(BaseRecord(fields[0], fields[2], fields[3], fields[4]))
  {
    SplitLimitOfJoin(fields, ':', 5);
  }

  /** A line of the deletion history, `id:time:sender:content`, as
      `split(":", 2)` reads it: only the id before the first `:` is used, and
      a line without `:` is skipped. */
  function ParseDeleted(line: string): (r: Option<string>)
    ensures r.Some? <==> ':' in line
    ensures r.Some? ==> ':' !in r.value && StartsWith(line, r.value + [':'])
  {
    var parts := SplitLimit(line, ':', 2);
    if |parts| < 2 then None else Some(parts[0])
  }

  /** What an edit line, `id:time:sender:old:new`, contributes: the id and
      the fifth `:`-field, which is everything after the fourth `:`. */
  datatype Edit = Edit(id: string, content: string)

  function ParseModified(line: string): (r: Option<Edit>)
    ensures r.None? <==> multiset(line)[':'] < 4
    ensures r.Some? ==> ':' !in r.value.id
  {
    SplitLimitShape(line, ':', 5);
    SplitLimitCount(line, ':', 5);
    var parts := SplitLimit(line, ':', 5);
    if |parts| < 5 then None else Some(Edit(parts[0], parts[4]))
  }

  /** An edit line reads back as its id and new content when neither the id,
      the time, the sender nor the old content holds `:`. */
  lemma ParseModifiedOfLine(id: string, time: string, sender: string, before: string, after: string)
    requires ':' !in id && ':' !in time && ':' !in sender && ':' !in before
    ensures ParseModified(Join([id, time, sender, before, after], ':')) == Some(Edit(id, after))
  {
    SplitLimitOfJoin([id, time, sender, before, after], ':', 5);
  }

  /** When the old content holds `:`, its tail leaks into the new content the
      history shows: editing `a:b` into `c` reads back as `b:c`. */
  lemma ColonInOldContentLeaks()
    ensures ParseModified(Join(["m", "1", "bob", "a:b", "c"], ':')) == Some(Edit("m", "b:c"))
  {
    var s := Join(["m", "1", "bob", "a:b", "c"], ':');
    var fs := ["m", "1", "bob", "a", "b:c"];
    assert s == Join(fs, ':');
    SplitLimitOfJoin(fs, ':', 5);
  }

  // ---------------------------------------------------------------------------
  // LinkedHashMap<String, String>

  /** An insertion-ordered map: the keys in the order they were first put,
      and the value of each. */
  datatype Linked = Linked(keys: seq<string>, values: map<string, string>)

  predicate Distinct(xs: seq<string>) {
    forall i, j :: 0 <= i < j < |xs| ==> xs[i] != xs[j]
  }

  ghost predicate Valid(h: Linked) {
    Distinct(h.keys) && forall k :: k in h.values <==> k in h.keys
  }

  /** `put`: a new key goes at the end, an existing one keeps its place. */
  function Put(h: Linked, k: string, v: string): (r: Linked)
    ensures Valid(h) ==> Valid(r)
    ensures r.values == h.values[k := v]
    ensures k in h.values ==> r.keys == h.keys
    ensures k !in h.values ==> r.keys == h.keys + [k]
  {
    if k in h.values then Linked(h.keys, h.values[k := v]) else Linked(h.keys + [k], h.values[k := v])
  }

  /** `values()`: the values in key order. */
  function Texts(h: Linked): (r: seq<string>)
    ensures |r| == |h.keys|
    ensures forall i :: 0 <= i < |h.keys| && h.keys[i] in h.values ==> r[i] == h.values[h.keys[i]]
  {
    seq(|h.keys|, i requires 0 <= i < |h.keys| => if h.keys[i] in h.values then h.values[h.keys[i]] else "")
  }

  // ---------------------------------------------------------------------------
  // Stage 1: the message history

  /** A record that puts an entry: well formed and not marked deleted. */
  predicate Live(r: Option<BaseRecord>) {
    r.Some? && r.value.status != DeletedStatus
  }

  /** The text an entry shows, `sender: content`. */
  function TextOf(b: BaseRecord): string {
    b.sender + ": " + b.content
  }

  /** Every live record is put under its id, in order. */
  function Collect(recs: seq<Option<BaseRecord>>): (h: Linked)
    ensures Valid(h) && |h.keys| <= |recs|
    ensures forall i :: 0 <= i < |recs| && Live(recs[i]) ==> recs[i].value.id in h.values
    decreases |recs|
  {
    if |recs| == 0 then Linked([], map[])
    else
      var h := Collect(recs[..|recs| - 1]);
      var r := recs[|recs| - 1];
      if Live(r) then Put(h, r.value.id, TextOf(r.value)) else h
  }

  /** The first live record for `k`. */
  function FirstLive(recs: seq<Option<BaseRecord>>, k: string): (i: Option<nat>)
    ensures i.Some? ==> i.value < |recs| && Live(recs[i.value]) && recs[i.value].value.id == k
    ensures i.Some? ==> forall j :: 0 <= j < i.value ==> !(Live(recs[j]) && recs[j].value.id == k)
    ensures i.None? ==> forall j :: 0 <= j < |recs| ==> !(Live(recs[j]) && recs[j].value.id == k)
    decreases |recs|
  {
    if |recs| == 0 then None
    else
      match FirstLive(recs[..|recs| - 1], k)
      case Some(i) => Some(i)
      case None =>
        var r := recs[|recs| - 1];
        if Live(r) && r.value.id == k then Some(|recs| - 1) else None
  }

  /** The last live record for `k`. */
  function LastLive(recs: seq<Option<BaseRecord>>, k: string): (i: Option<nat>)
    ensures i.Some? ==> i.value < |recs| && Live(recs[i.value]) && recs[i.value].value.id == k
    ensures i.Some? ==> forall j :: i.value < j < |recs| ==> !(Live(recs[j]) && recs[j].value.id == k)
    ensures i.None? ==> forall j :: 0 <= j < |recs| ==> !(Live(recs[j]) && recs[j].value.id == k)
    decreases |recs|
  {
    if |recs| == 0 then None
    else
      var r := recs[|recs| - 1];
      if Live(r) && r.value.id == k then Some(|recs| - 1) else LastLive(recs[..|recs| - 1], k)
  }

  /** Where `k` first appears among the live records (-1 if nowhere). */
  function FirstRank(recs: seq<Option<BaseRecord>>, k: string): int {
    match FirstLive(recs, k)
    case Some(i) => i
    case None => -1
  }

  /** The keys in order of first appearance. */
  predicate RankedBy(xs: seq<string>, recs: seq<Option<BaseRecord>>) {
    forall a, b :: 0 <= a < b < |xs| ==> FirstRank(recs, xs[a]) < FirstRank(recs, xs[b])
  }

  /** After the message history: an entry for exactly the ids that have a
      live record. A record marked deleted does not remove an earlier entry
      for its id. */
  lemma {:induction false} CollectKeys(recs: seq<Option<BaseRecord>>)
    ensures Valid(Collect(recs))
    ensures forall k :: k in Collect(recs).values <==> FirstLive(recs, k).Some?
    decreases |recs|
  {
    if |recs| > 0 {
      var init := recs[..|recs| - 1];
      CollectKeys(init);
      forall k
        ensures k in Collect(recs).values <==> FirstLive(recs, k).Some?
      {
        FirstLiveLast(recs, k);
      }
    }
  }

  /** One more record changes the first live record of no id that already
      had one. */
  lemma FirstLiveLast(recs: seq<Option<BaseRecord>>, k: string)
    requires |recs| > 0
    ensures var init := recs[..|recs| - 1];
            var r := recs[|recs| - 1];
            FirstLive(recs, k) == if FirstLive(init, k).Some? then FirstLive(init, k)
                                  else if Live(r) && r.value.id == k then Some(|recs| - 1) else None
  {
  }

  /** The entries are in order of their ids' first live record. */
  lemma {:induction false} CollectRanked(recs: seq<Option<BaseRecord>>)
    ensures RankedBy(Collect(recs).keys, recs)
    decreases |recs|
  {
    if |recs| > 0 {
      var init := recs[..|recs| - 1];
      var r := recs[|recs| - 1];
      var h := Collect(init);
      CollectRanked(init);
      CollectKeys(init);
      var keys := Collect(recs).keys;
      forall a, b | 0 <= a < b < |keys|
        ensures FirstRank(recs, keys[a]) < FirstRank(recs, keys[b])
      {
        assert keys[a] == h.keys[a];
        FirstLiveLast(recs, keys[a]);
        if b < |h.keys| {
          assert keys[b] == h.keys[b];
          FirstLiveLast(recs, keys[b]);
          assert FirstRank(init, h.keys[a]) < FirstRank(init, h.keys[b]);
        } else {
          assert keys[a] in h.values;
          FirstLiveLast(recs, keys[b]);
        }
      }
    }
  }

  /** Each entry after the message history shows the last live record for
      its id. */
  lemma {:induction false} CollectText(recs: seq<Option<BaseRecord>>, k: string)
    requires LastLive(recs, k).Some?
    ensures k in Collect(recs).values
    ensures Collect(recs).values[k] == TextOf(recs[LastLive(recs, k).value].value)
    decreases |recs|
  {
    var init := recs[..|recs| - 1];
    var r := recs[|recs| - 1];
    if !(Live(r) && r.value.id == k) {
      CollectText(init, k);
      assert LastLive(recs, k) == LastLive(init, k);
      assert recs[LastLive(recs, k).value] == init[LastLive(init, k).value];
    }
  }

  // ---------------------------------------------------------------------------
  // Stage 2: the deletions

  /** The ids the deletion history names. */
  function DeletedIds(lines: seq<string>): set<string> {
    set i | 0 <= i < |lines| && ParseDeleted(lines[i]).Some? :: ParseDeleted(lines[i]).value
  }

  lemma DeletedIdsMeaning(lines: seq<string>, k: string)
    ensures k in DeletedIds(lines) <==> exists i :: 0 <= i < |lines| && ParseDeleted(lines[i]) == Some(k)
  {
  }

  /** The keys not in `dead`, in their order. */
  function Surviving(xs: seq<string>, dead: set<string>): seq<string>
    decreases |xs|
  {
    if |xs| == 0 then []
    else
      var kept := Surviving(xs[..|xs| - 1], dead);
      if xs[|xs| - 1] in dead then kept else kept + [xs[|xs| - 1]]
  }

  lemma {:induction false} SurvivingMeaning(xs: seq<string>, dead: set<string>)
    ensures forall x :: x in Surviving(xs, dead) <==> x in xs && x !in dead
    ensures Distinct(xs) ==> Distinct(Surviving(xs, dead))
    decreases |xs|
  {
    if |xs| > 0 {
      var init := xs[..|xs| - 1];
      SurvivingMeaning(init, dead);
      assert xs == init + [xs[|xs| - 1]];
      assert forall x :: x in xs <==> x in init || x == xs[|xs| - 1];
      if Distinct(xs) {
        assert xs[|xs| - 1] !in init;
      }
    }
  }

  lemma {:induction false} SurvivingKeepsRank(xs: seq<string>, dead: set<string>, recs: seq<Option<BaseRecord>>)
    requires RankedBy(xs, recs)
    ensures RankedBy(Surviving(xs, dead), recs)
    decreases |xs|
  {
    if |xs| > 0 {
      var init := xs[..|xs| - 1];
      var last := xs[|xs| - 1];
      SurvivingKeepsRank(init, dead, recs);
      SurvivingMeaning(init, dead);
      var kept := Surviving(init, dead);
      if last !in dead {
        var s := kept + [last];
        forall a, b | 0 <= a < b < |s|
          ensures FirstRank(recs, s[a]) < FirstRank(recs, s[b])
        {
          assert s[a] == kept[a];
          if b == |kept| {
            assert kept[a] in init;
            var j :| 0 <= j < |init| && init[j] == kept[a];
            assert xs[j] == kept[a];
          } else {
            assert s[b] == kept[b];
          }
        }
      }
    }
  }

  /** `remove` of every deleted id. */
  function RemoveAll(h: Linked, dead: set<string>): (r: Linked)
    ensures forall k :: k in r.values <==> k in h.values && k !in dead
    ensures forall k :: k in r.values ==> r.values[k] == h.values[k]
  {
    Linked(Surviving(h.keys, dead), map k | k in h.values && k !in dead :: h.values[k])
  }

  lemma RemoveAllValid(h: Linked, dead: set<string>)
    requires Valid(h)
    ensures Valid(RemoveAll(h, dead))
  {
    SurvivingMeaning(h.keys, dead);
  }

  // ---------------------------------------------------------------------------
  // Stage 3: the edits

  /** `text.split(": ", 2)[0]`: the text before the first `": "`, or all of
      it when there is none. */
  function SenderOf(text: string): (sender: string)
    ensures |sender| <= |text| && text[..|sender|] == sender
    ensures sender == text || (|sender| + 2 <= |text| && text[|sender|..|sender| + 2] == ": ")
    ensures forall i :: 0 <= i < |sender| && i + 1 < |text| ==> !(text[i] == ':' && text[i + 1] == ' ')
    decreases |text|
  {
    if |text| < 2 then text
    else if text[0] == ':' && text[1] == ' ' then ""
    else [text[0]] + SenderOf(text[1..])
  }

  /** The sender of `s: c` is `s` when `s` holds no `:`. */
  lemma {:induction false} SenderOfText(s: string, c: string)
    requires ':' !in s
    ensures SenderOf(s + ": " + c) == s
    decreases |s|
  {
    if |s| > 0 {
      assert (s + ": " + c)[0] == s[0];
      assert (s + ": " + c)[1..] == s[1..] + ": " + c;
      SenderOfText(s[1..], c);
      assert s == [s[0]] + s[1..];
    } else {
      assert s + ": " + c == ": " + c;
    }
  }

  /** An edit to an id still present keeps the sender shown and replaces the
      content; an edit to any other id is ignored. */
  function ApplyEdit(h: Linked, e: Option<Edit>): Linked {
    match e
    case None => h
    case Some(m) =>
      if m.id in h.values then Put(h, m.id, SenderOf(h.values[m.id]) + ": " + m.content) else h
  }

  function ApplyEdits(h: Linked, edits: seq<Option<Edit>>): (g: Linked)
    ensures g.keys == h.keys
    ensures forall k :: k in g.values <==> k in h.values
    decreases |edits|
  {
    if |edits| == 0 then h else ApplyEdit(ApplyEdits(h, edits[..|edits| - 1]), edits[|edits| - 1])
  }

  /** The content of the last edit to `k`, if any. */
  function LastEdit(edits: seq<Option<Edit>>, k: string): Option<string>
    decreases |edits|
  {
    if |edits| == 0 then None
    else
      var e := edits[|edits| - 1];
      if e.Some? && e.value.id == k then Some(e.value.content) else LastEdit(edits[..|edits| - 1], k)
  }

  /** Edits change no key and no key's place. */
  lemma {:induction false} EditsKeepKeys(h: Linked, edits: seq<Option<Edit>>)
    requires Valid(h)
    ensures Valid(ApplyEdits(h, edits))
    ensures ApplyEdits(h, edits).keys == h.keys
    decreases |edits|
  {
    if |edits| > 0 {
      EditsKeepKeys(h, edits[..|edits| - 1]);
    }
  }

  /** An entry `s: c` ends up as `s:` followed by the content of its last
      edit, or as it was when it has none. */
  lemma {:induction false} EditsOnKey(h: Linked, edits: seq<Option<Edit>>, k: string, s: string, c: string)
    requires Valid(h) && k in h.values && h.values[k] == s + ": " + c && ':' !in s
    ensures k in ApplyEdits(h, edits).values
    ensures ApplyEdits(h, edits).values[k] == s + ": " + (if LastEdit(edits, k).Some? then LastEdit(edits, k).value else c)
    decreases |edits|
  {
    if |edits| > 0 {
      var init := edits[..|edits| - 1];
      var e := edits[|edits| - 1];
      EditsOnKey(h, init, k, s, c);
      EditsKeepKeys(h, init);
      var g := ApplyEdits(h, init);
      if e.Some? && e.value.id == k {
        var content := if LastEdit(init, k).Some? then LastEdit(init, k).value else c;
        SenderOfText(s, content);
      }
    }
  }

  // ---------------------------------------------------------------------------
  // The merge and its rendering

  function Bases(lines: seq<string>): (r: seq<Option<BaseRecord>>)
    ensures |r| == |lines| && forall i :: 0 <= i < |lines| ==> r[i] == ParseBase(lines[i])
  {
    seq(|lines|, i requires 0 <= i < |lines| => ParseBase(lines[i]))
  }

  function Edits(lines: seq<string>): (r: seq<Option<Edit>>)
    ensures |r| == |lines| && forall i :: 0 <= i < |lines| ==> r[i] == ParseModified(lines[i])
  {
    seq(|lines|, i requires 0 <= i < |lines| => ParseModified(lines[i]))
  }

  /** `loadHistory` before rendering: the message history, less the deleted
      ids, with the edits applied. */
  function Merged(base: seq<string>, deleted: seq<string>, modified: seq<string>): (h: Linked)
    ensures Valid(h)
    ensures forall k :: k in h.values ==> k !in DeletedIds(deleted)
  {
    var live := RemoveAll(Collect(Bases(base)), DeletedIds(deleted));
    CollectKeys(Bases(base));
    RemoveAllValid(Collect(Bases(base)), DeletedIds(deleted));
    EditsKeepKeys(live, Edits(modified));
    ApplyEdits(live, Edits(modified))
  }

  /** Each value followed by a line break, then `trim`: the texts joined by
      line breaks, with the blanks at both ends removed. */
  function Render(texts: seq<string>): (r: string)
    ensures TrimOf(Join(texts, '\n'), r)
  {
    RenderTrims(texts);
    Trim(Lines(texts))
  }

  lemma RenderTrims(texts: seq<string>)
    ensures TrimOf(Join(texts, '\n'), Trim(Lines(texts)))
  {
    var j := Join(texts, '\n');
    var l := Lines(texts);
    if |texts| > 0 {
      LinesOfJoin(texts);
      TrimNewline(j, l);
    }
    TrimIsTrimOf(j);
  }

  /** A line break at the end is one more trailing blank. */
  lemma TrimNewline(j: string, l: string)
    requires l == j + "\n"
    ensures Trim(l) == Trim(j)
  {
    assert IsBlank('\n');
    TrimStartSuffix(j, "\n");
  }

  function Lines(texts: seq<string>): string
    decreases |texts|
  {
    if |texts| == 0 then "" else texts[0] + "\n" + Lines(texts[1..])
  }

  /** `loadHistory(date)` over the day's three files. */
  function LoadHistory(base: seq<string>, deleted: seq<string>, modified: seq<string>): (text: string)
    ensures TrimOf(Join(Texts(Merged(base, deleted, modified)), '\n'), text)
    ensures Merged(base, deleted, modified).keys == [] ==> text == ""
  {
    Render(Texts(Merged(base, deleted, modified)))
  }

  /** Which messages the history shows, and in what order: exactly the ids
      with a well-formed line not marked deleted in the message history and
      named by no deletion line, each once, in order of its first such line.
      A deleted id never comes back through an edit. */
  lemma MergedKeys(base: seq<string>, deleted: seq<string>, modified: seq<string>)
    ensures Valid(Merged(base, deleted, modified))
    ensures forall k :: k in Merged(base, deleted, modified).keys
                        <==> FirstLive(Bases(base), k).Some? && k !in DeletedIds(deleted)
    ensures RankedBy(Merged(base, deleted, modified).keys, Bases(base))
  {
    var recs := Bases(base);
    var dead := DeletedIds(deleted);
    var h := Collect(recs);
    CollectKeys(recs);
    CollectRanked(recs);
    RemoveAllValid(h, dead);
    SurvivingKeepsRank(h.keys, dead, recs);
    EditsKeepKeys(RemoveAll(h, dead), Edits(modified));
  }

  /** What each message shows: the sender of its last live line in the
      message history, then the content of its last edit line, or of that
      live line when it was never edited. */
  lemma MergedText(base: seq<string>, deleted: seq<string>, modified: seq<string>, k: string)
    requires k in Merged(base, deleted, modified).values
    ensures LastLive(Bases(base), k).Some?
    ensures var b := Bases(base)[LastLive(Bases(base), k).value].value;
            var e := LastEdit(Edits(modified), k);
            Merged(base, deleted, modified).values[k] == b.sender + ": " + (if e.Some? then e.value else b.content)
  {
    var recs := Bases(base);
    var dead := DeletedIds(deleted);
    var h := Collect(recs);
    CollectKeys(recs);
    RemoveAllValid(h, dead);
    EditsKeepKeys(RemoveAll(h, dead), Edits(modified));
    assert k in RemoveAll(h, dead).values;
    assert LastLive(recs, k).Some?;
    CollectText(recs, k);
    var b := recs[LastLive(recs, k).value].value;
    EditsOnKey(RemoveAll(h, dead), Edits(modified), k, b.sender, b.content);
  }

  /** The rendered history is the entries' texts joined by line breaks when
      the first text starts and the last one ends with a visible character;
      with no entries it is empty. */
  lemma RenderJoins(texts: seq<string>)
    requires |texts| > 0 && texts[0] != "" && !IsBlank(texts[0][0])
    requires texts[|texts| - 1] != "" && !IsBlank(texts[|texts| - 1][|texts[|texts| - 1]| - 1])
    ensures Render(texts) == Join(texts, '\n')
  {
    var j := Join(texts, '\n');
    LinesOfJoin(texts);
    JoinFinishes(texts);
    if |texts| > 1 {
      assert j == texts[0] + ['\n'] + Join(texts[1..], '\n');
    }
    assert TrimStart(j + "\n") == j + "\n";
    assert (j + "\n")[..|j|] == j;
    assert TrimEnd(j) == j;
  }

  lemma RenderEmpty()
    ensures Render([]) == ""
  {
  }

  lemma {:induction false} LinesOfJoin(texts: seq<string>)
    requires |texts| > 0
    ensures Lines(texts) == Join(texts, '\n') + "\n"
    decreases |texts|
  {
    if |texts| > 1 {
      LinesOfJoin(texts[1..]);
    } else {
      assert Lines(texts[1..]) == "";
    }
  }

  /** The joined text ends with the last text. */
  lemma {:induction false} JoinFinishes(texts: seq<string>)
    requires |texts| > 0 && texts[|texts| - 1] != ""
    ensures |Join(texts, '\n')| > 0
    ensures Join(texts, '\n')[|Join(texts, '\n')| - 1] == texts[|texts| - 1][|texts[|texts| - 1]| - 1]
    decreases |texts|
  {
    if |texts| > 1 {
      JoinFinishes(texts[1..]);
    }
  }
}

=== FILE: chat_messages.dfy ===
/** The chat server's messages: posting, editing and deleting a message, and
    the history lines each of these appends. A message is live until it is
    deleted; an edit or a delete of a deleted message is refused. */
module ChatMessages {
  import opened JavaText
  import opened ChatHistory

  /** `ChatServer.Message`: the id, sender and timestamp are fixed when the
      message is posted; the content may be edited; the deleted flag, once
      set, is never cleared. */
  datatype Message = Message(id: string, sender: string, content: string, deleted: bool, timestamp: int)

  /** `formatMessage`: `id:timestamp:sender:status:content`, the status being
      `deleted` with content `null` for a deleted message and `normal` with
      the real content otherwise. */
  function FormatMessage(m: Message): (line: string)
    ensures StartsWith(line, m.id + [':'])
    ensures multiset(line)[':'] >= 4
  {
    var fields := [m.id, LongToString(m.timestamp), m.sender,
                   if m.deleted then DeletedStatus else "normal",
                   if m.deleted then "null" else m.content];
    JoinCons(fields, ':');
    JoinSeparators(fields, ':');
    Join(fields, ':')
  }

  /** The message history reads a formatted message back, content intact
      even when it holds `:`, as long as the id and the sender do not. */
  lemma FormatThenParse(m: Message)
    requires ':' !in m.id && ':' !in m.sender
    ensures ParseBase(FormatMessage(m))
            == Some(BaseRecord(m.id, m.sender, if m.deleted then DeletedStatus else "normal",
                               if m.deleted then "null" else m.content))
  {
    LongTextHasNo(m.timestamp, ':');
    ParseBaseOfJoin([m.id, LongToString(m.timestamp), m.sender,
                     if m.deleted then DeletedStatus else "normal",
                     if m.deleted then "null" else m.content]);
  }

  /** The server's messages by id and the day's three history files. */
  datatype Chat = Chat(messages: map<string, Message>, base: seq<string>, deleted: seq<string>, modified: seq<string>)

  /** The state after handling one line, the text sent back to the author
      alone, and the text broadcast to everyone. */
  datatype Outcome = Outcome(chat: Chat, reply: Option<string>, broadcast: Option<string>)

  const UnknownId: string := "Erreur : Message ID introuvable."

  function AlreadyDeleted(id: string): string {
    "Erreur : Le message avec l'identifiant " + id + " est déjà supprimé."
  }

  function CannotModifyDeleted(id: string): string {
    "Erreur : Le message avec l'identifiant " + id + " a été supprimé et ne peut pas être modifié."
  }

  // ---------------------------------------------------------------------------
  // Posting

  /** `handleNewMessage`: the message is stored under a fresh id (a UUID,
      here a parameter, as is the clock), its formatted line appended to the
      message history, and it is broadcast. */
  function HandleNew(c: Chat, user: string, id: string, content: string, now: int): (o: Outcome)
    ensures id in o.chat.messages && o.chat.messages[id] == Message(id, user, content, false, now)
    ensures forall k :: k != id && k in c.messages ==> k in o.chat.messages && o.chat.messages[k] == c.messages[k]
    ensures |o.chat.base| == |c.base| + 1 && o.chat.base[..|c.base|] == c.base
    ensures o.chat.deleted == c.deleted && o.chat.modified == c.modified
    ensures o.chat.messages.Keys == c.messages.Keys + {id}
    ensures o.chat.base[|c.base|] == FormatMessage(Message(id, user, content, false, now))
    ensures o.reply.None? && o.broadcast == Some(user + " (ID: " + id + ") : " + content)
  {
    var m := Message(id, user, content, false, now);
    Outcome(c.(messages := c.messages[id := m], base := c.base + [FormatMessage(m)]),
            None, Some(user + " (ID: " + id + ") : " + content))
  }

  /** A posted message shows in the day's history as `sender: content` when
      nothing has deleted or edited it (and its id and sender hold no `:`). */
  lemma PostedMessageShown(c: Chat, user: string, id: string, content: string, now: int)
    requires ':' !in id && ':' !in user
    requires id !in DeletedIds(c.deleted)
    requires forall i :: 0 <= i < |c.modified| ==> ParseModified(c.modified[i]).None? || ParseModified(c.modified[i]).value.id != id
    ensures var o := HandleNew(c, user, id, content, now);
            id in Merged(o.chat.base, o.chat.deleted, o.chat.modified).values
            && Merged(o.chat.base, o.chat.deleted, o.chat.modified).values[id] == user + ": " + content
  {
    var m := Message(id, user, content, false, now);
    FormatThenParse(m);
    AppendedLineShown(c.base, c.deleted, c.modified, FormatMessage(m), BaseRecord(id, user, "normal", content));
  }

  /** A live line appended to the history shows under its id, when the id
      is not deleted and no edit names it. */
  lemma AppendedLineShown(base: seq<string>, deleted: seq<string>, modified: seq<string>,
                          line: string, r: BaseRecord)
    requires ParseBase(line) == Some(r) && Live(Some(r))
    requires r.id !in DeletedIds(deleted)
    requires forall i :: 0 <= i < |modified| ==> ParseModified(modified[i]).None? || ParseModified(modified[i]).value.id != r.id
    ensures r.id in Merged(base + [line], deleted, modified).values
    ensures Merged(base + [line], deleted, modified).values[r.id] == r.sender + ": " + r.content
  {
    var lines := base + [line];
    LastLineLive(lines, r);
    MergedKeys(lines, deleted, modified);
    NoEditFor(Edits(modified), r.id);
    MergedText(lines, deleted, modified, r.id);
  }

  /** A live last line is both the first and the last live line for its id
      as far as the merge is concerned: it is the last one, and some line is
      live for that id. */
  lemma LastLineLive(lines: seq<string>, r: BaseRecord)
    requires |lines| > 0 && ParseBase(lines[|lines| - 1]) == Some(r) && Live(Some(r))
    ensures LastLive(Bases(lines), r.id) == Some(|lines| - 1)
    ensures FirstLive(Bases(lines), r.id).Some?
  {
    var recs := Bases(lines);
    assert recs[|recs| - 1] == Some(r);
  }

  lemma {:induction false} NoEditFor(edits: seq<Option<Edit>>, k: string)
    requires forall i :: 0 <= i < |edits| ==> edits[i].None? || edits[i].value.id != k
    ensures LastEdit(edits, k).None?
    decreases |edits|
  {
    if |edits| > 0 {
      NoEditFor(edits[..|edits| - 1], k);
    }
  }

  // ---------------------------------------------------------------------------
  // Editing

  /** The id and new content of `MODIFY:<id>:<content>`, as `split(":", 3)`
      reads it; `None` when there are fewer than three fields. */
  datatype Change = Change(id: string, content: string)

  function ParseModify(line: string): (r: Option<Change>)
    ensures r.None? <==> multiset(line)[':'] < 2
    ensures r.Some? ==> ':' !in r.value.id
    ensures r.Some? ==> line == Join([line[..IndexOf(line, ':')], r.value.id, r.value.content], ':')
  {
    SplitLimitShape(line, ':', 3);
    SplitLimitCount(line, ':', 3);
    JoinOfSplitLimit(line, ':', 3);
    var parts := SplitLimit(line, ':', 3);
    if |parts| < 3 then None
    else
      assert parts == [parts[0], parts[1], parts[2]];
      Some(Change(parts[1], parts[2]))
  }

  /** The command `MODIFY:<id>:<content>` names message `<id>` and carries
      `<content>` whole, `:` included, when the id holds no `:`. */
  lemma ParseModifyOfCommand(id: string, content: string)
    requires ':' !in id
    ensures ParseModify(Join(["MODIFY", id, content], ':')) == Some(Change(id, content))
  {
    assert ':' !in "MODIFY";
    SplitLimitOfJoin(["MODIFY", id, content], ':', 3);
  }

  /** `handleModifyMessage`: a malformed line is ignored; an unknown id or a
      deleted message gets an error and nothing changes; otherwise only the
      content changes, the edit line `id:time:sender:old:new` is appended to
      the edit history and the edit is broadcast. There is no check that the
      editor is the sender. */
  function HandleModify(c: Chat, user: string, line: string, now: int): (o: Outcome)
    ensures ParseModify(line).None? ==> o == Outcome(c, None, None)
    ensures ParseModify(line).Some? && ParseModify(line).value.id !in c.messages
            ==> o == Outcome(c, Some(UnknownId), None)
    ensures ParseModify(line).Some? && ParseModify(line).value.id in c.messages
            && c.messages[ParseModify(line).value.id].deleted
            ==> o == Outcome(c, Some(CannotModifyDeleted(ParseModify(line).value.id)), None)
    ensures o.chat.messages.Keys == c.messages.Keys
    ensures o.chat.base == c.base && o.chat.deleted == c.deleted
    ensures forall k :: k in c.messages && (ParseModify(line).None? || k != ParseModify(line).value.id)
                        ==> o.chat.messages[k] == c.messages[k]
  {
    match ParseModify(line)
    case None => Outcome(c, None, None)
    case Some(ch) =>
      if ch.id !in c.messages then Outcome(c, Some(UnknownId), None)
      else
        var m := c.messages[ch.id];
        if m.deleted then Outcome(c, Some(CannotModifyDeleted(ch.id)), None)
        else
          var record := Join([m.id, LongToString(now), m.sender, m.content, ch.content], ':');
          Outcome(c.(messages := c.messages[ch.id := m.(content := ch.content)],
                     modified := c.modified + [record]),
                  None, Some(user + " a modifié un message (ID: " + ch.id + "):" + ch.content))
  }

  /** An edit of a live message replaces its content and nothing else. */
  lemma ModifyLive(c: Chat, user: string, line: string, now: int)
    requires ParseModify(line).Some?
    requires var id := ParseModify(line).value.id; id in c.messages && !c.messages[id].deleted
    ensures var ch := ParseModify(line).value;
            var o := HandleModify(c, user, line, now);
            o.chat.messages[ch.id] == c.messages[ch.id].(content := ch.content)
            && |o.chat.modified| == |c.modified| + 1 && o.reply.None?
  {
  }

  /** The edit history read back gives the new content as the id's last
      edit, when the sender and the old content hold no `:`; the history
      shown then ends the message with the new content. */
  lemma ModifyRecorded(c: Chat, user: string, line: string, now: int)
    requires ParseModify(line).Some?
    requires var id := ParseModify(line).value.id;
             id in c.messages && !c.messages[id].deleted && c.messages[id].id == id
             && ':' !in c.messages[id].sender && ':' !in c.messages[id].content
    ensures var ch := ParseModify(line).value;
            var o := HandleModify(c, user, line, now);
            LastEdit(Edits(o.chat.modified), ch.id) == Some(ch.content)
  {
    var ch := ParseModify(line).value;
    var m := c.messages[ch.id];
    var record := Join([m.id, LongToString(now), m.sender, m.content, ch.content], ':');
    LongTextHasNo(now, ':');
    ParseModifiedOfLine(ch.id, LongToString(now), m.sender, m.content, ch.content);
    assert HandleModify(c, user, line, now).chat.modified == c.modified + [record];
    LastEditOfAppended(c.modified, record);
  }

  /** An edit line appended last decides its id's last edit. */
  lemma LastEditOfAppended(lines: seq<string>, line: string)
    requires ParseModified(line).Some?
    ensures LastEdit(Edits(lines + [line]), ParseModified(line).value.id) == Some(ParseModified(line).value.content)
  {
    var edits := Edits(lines + [line]);
    assert edits[|edits| - 1] == ParseModified(line);
  }

  // ---------------------------------------------------------------------------
  // Deleting

  /** Whether a line of the deletion history already names `id`, that is,
      starts with `id:`. */
  predicate Mentions(log: seq<string>, id: string) {
    exists i :: 0 <= i < |log| && StartsWith(log[i], id + [':'])
  }

  /** `saveDeletedMessageToHistory`: append `id:time:sender:content` unless
      a line already starts with `id:`. */
  function SaveDeleted(log: seq<string>, m: Message, now: int): (r: seq<string>)
    ensures Mentions(log, m.id) ==> r == log
    ensures !Mentions(log, m.id) ==> |r| == |log| + 1 && r[..|log|] == log
    ensures Mentions(r, m.id)
  {
    if Mentions(log, m.id) then log
    else
      var line := Join([m.id, LongToString(now), m.sender, m.content], ':');
      JoinStartsWithFirst(m.id, [LongToString(now), m.sender, m.content]);
      var r := log + [line];
      assert StartsWith(r[|log|], m.id + [':']);
      r
  }

  lemma JoinStartsWithFirst(first: string, rest: seq<string>)
    requires |rest| > 0
    ensures StartsWith(Join([first] + rest, ':'), first + [':'])
  {
    var fs := [first] + rest;
    assert fs[1..] == rest;
    assert Join(fs, ':') == first + [':'] + Join(rest, ':');
  }

  /** The number of deletion lines that name `id`. */
  function Count(log: seq<string>, id: string): nat
    decreases |log|
  {
    if |log| == 0 then 0
    else Count(log[..|log| - 1], id) + if StartsWith(log[|log| - 1], id + [':']) then 1 else 0
  }

  lemma {:induction false} CountZero(log: seq<string>, id: string)
    requires !Mentions(log, id)
    ensures Count(log, id) == 0
    decreases |log|
  {
    if |log| > 0 {
      var init := log[..|log| - 1];
      assert !Mentions(init, id) by {
        forall i | 0 <= i < |init|
          ensures !StartsWith(init[i], id + [':'])
        {
          assert init[i] == log[i];
        }
      }
      CountZero(init, id);
    }
  }

  /** Saving a deletion twice writes one line: the second save changes
      nothing, and an id named at most once stays named at most once. */
  lemma SaveDeletedOnce(log: seq<string>, m: Message, now: int, later: Message, after: int)
    requires later.id == m.id
    ensures SaveDeleted(SaveDeleted(log, m, now), later, after) == SaveDeleted(log, m, now)
    ensures Count(log, m.id) <= 1 ==> Count(SaveDeleted(log, m, now), m.id) <= 1
  {
    if !Mentions(log, m.id) {
      CountZero(log, m.id);
      var r := SaveDeleted(log, m, now);
      assert r[..|r| - 1] == log;
    }
  }

  /** The id of `DELETE:<id>`, as `split(":", 2)` reads it. */
  function ParseDelete(line: string): (r: Option<string>)
    ensures r.Some? <==> ':' in line
    ensures r.Some? ==> line == line[..IndexOf(line, ':')] + [':'] + r.value
  {
    IndexOfIn(line, ':');
    var parts := SplitLimit(line, ':', 2);
    if |parts| < 2 then None else Some(parts[1])
  }

  /** The command `DELETE:<id>` names message `<id>`, whatever `<id>`
      holds. */
  lemma ParseDeleteOfCommand(id: string)
    ensures ParseDelete(Join(["DELETE", id], ':')) == Some(id)
  {
    assert ':' !in "DELETE";
    SplitLimitOfJoin(["DELETE", id], ':', 2);
  }

  /** `handleDeleteMessage`: an unknown id gets an error, a message already
      deleted gets an error; otherwise only the deleted flag is set, the
      deletion is saved once and broadcast. There is no check that the
      deleter is the sender. */
  function HandleDelete(c: Chat, user: string, line: string, now: int): (o: Outcome)
    ensures ParseDelete(line).None? ==> o == Outcome(c, None, None)
    ensures ParseDelete(line).Some? && ParseDelete(line).value !in c.messages
            ==> o == Outcome(c, Some(UnknownId), None)
    ensures ParseDelete(line).Some? && ParseDelete(line).value in c.messages
            && c.messages[ParseDelete(line).value].deleted
            ==> o == Outcome(c, Some(AlreadyDeleted(ParseDelete(line).value)), None)
    ensures o.chat.messages.Keys == c.messages.Keys
    ensures o.chat.base == c.base && o.chat.modified == c.modified
    ensures forall k :: k in c.messages && (ParseDelete(line).None? || k != ParseDelete(line).value)
                        ==> o.chat.messages[k] == c.messages[k]
  {
    match ParseDelete(line)
    case None => Outcome(c, None, None)
    case Some(id) =>
      if id !in c.messages then Outcome(c, Some(UnknownId), None)
      else
        var m := c.messages[id];
        if m.deleted then Outcome(c, Some(AlreadyDeleted(id)), None)
        else
          var gone := m.(deleted := true);
          Outcome(c.(messages := c.messages[id := gone], deleted := SaveDeleted(c.deleted, gone, now)),
                  None, Some(user + " a supprimé un message (ID: " + id + ")."))
  }

  /** Deleting a live message sets its flag and nothing else, and from then
      on the day's history no longer shows it (when its id holds no `:`). */
  lemma DeleteLive(c: Chat, user: string, line: string, now: int)
    requires ParseDelete(line).Some?
    requires Keyed(c)
    requires var id := ParseDelete(line).value; id in c.messages && !c.messages[id].deleted && ':' !in id
    ensures var id := ParseDelete(line).value;
            var o := HandleDelete(c, user, line, now);
            && o.chat.messages[id] == c.messages[id].(deleted := true)
            && o.reply.None?
            && id in DeletedIds(o.chat.deleted)
            && forall modified :: id !in Merged(o.chat.base, o.chat.deleted, modified).keys
  {
    var id := ParseDelete(line).value;
    var o := HandleDelete(c, user, line, now);
    var log := o.chat.deleted;
    assert Mentions(log, id);
    var i :| 0 <= i < |log| && StartsWith(log[i], id + [':']);
    NamedLineParses(log[i], id);
    forall modified
      ensures id !in Merged(o.chat.base, o.chat.deleted, modified).keys
    {
      MergedKeys(o.chat.base, o.chat.deleted, modified);
    }
  }

  /** A deletion line that starts with `id:` is read back as `id`. */
  lemma NamedLineParses(line: string, id: string)
    requires ':' !in id && StartsWith(line, id + [':'])
    ensures ParseDeleted(line) == Some(id)
  {
    assert line[|id|] == ':';
    var got := ParseDeleted(line).value;
    if |got| == |id| {
      assert got == line[..|got|] == id;
    }
  }

  // ---------------------------------------------------------------------------
  // The state machine over many lines

  /** Every message is stored under its own id. */
  predicate Keyed(c: Chat) {
    forall k :: k in c.messages ==> c.messages[k].id == k
  }

  datatype Command = Post(id: string, content: string) | ModifyLine(line: string) | DeleteLine(line: string)

  function Step(c: Chat, user: string, cmd: Command, now: int): Chat {
    match cmd
    case Post(id, content) => HandleNew(c, user, id, content, now).chat
    case ModifyLine(line) => HandleModify(c, user, line, now).chat
    case DeleteLine(line) => HandleDelete(c, user, line, now).chat
  }

  function Run(c: Chat, user: string, cmds: seq<Command>, now: int): Chat
    decreases |cmds|
  {
    if |cmds| == 0 then c else Step(Run(c, user, cmds[..|cmds| - 1], now), user, cmds[|cmds| - 1], now)
  }

  /** Deletion is final: whatever edits and deletions follow, a deleted
      message stays deleted with the content it had, unless a new post
      reuses its id. */
  lemma {:induction false} DeletedStaysDeleted(c: Chat, user: string, cmds: seq<Command>, now: int, k: string)
    requires k in c.messages && c.messages[k].deleted
    requires forall i :: 0 <= i < |cmds| ==> !(cmds[i].Post? && cmds[i].id == k)
    ensures k in Run(c, user, cmds, now).messages
    ensures Run(c, user, cmds, now).messages[k] == c.messages[k]
    decreases |cmds|
  {
    if |cmds| > 0 {
      DeletedStaysDeleted(c, user, cmds[..|cmds| - 1], now, k);
    }
  }

  /** Posting, editing and deleting keep every message under its own id. */
  lemma {:induction false} RunKeepsKeyed(c: Chat, user: string, cmds: seq<Command>, now: int)
    requires Keyed(c)
    ensures Keyed(Run(c, user, cmds, now))
    decreases |cmds|
  {
    if |cmds| > 0 {
      RunKeepsKeyed(c, user, cmds[..|cmds| - 1], now);
    }
  }
}

=== FILE: exchange.dfy ===
/** The client and the server put together: what a whole upload or download
    leaves on both sides, how an interrupted transfer resumes, and where the
    two ledgers (both keyed by the bare file name) make a transfer start
    from the wrong place. */
module Exchange {
  import opened JavaText
  import opened ResumeLedger
  import opened Transfer
  import opened Negotiation
  import opened Catalog
  import opened FileServer
  import opened FileClient

  /** The bytes stored at `<owner>/<name>` (none if there is no such file). */
  function StoredAt(s: Server, owner: string, name: string): seq<byte> {
    Existing(s.files, owner, name)
  }

  /** The offset the server starts an upload of `name` by `user` from. */
  function UploadStart(s: Server, user: string, name: string): nat {
    OfferedStart(Get(s.ledger, name), PathIndex(s.files, user, name).Some?)
  }

  /** The token the server offers for that upload. */
  function UploadOffer(s: Server, user: string, name: string): string {
    Offer(Get(s.ledger, name), PathIndex(s.files, user, name).Some?)
  }

  /** Whether the stored copy is a prefix-consistent partial copy of `src`
      from which an upload can resume: it agrees with `src` up to the offset
      the server will offer, and is no longer than `src`. */
  predicate ResumableFrom(s: Server, user: string, name: string, src: seq<byte>) {
    var start := UploadStart(s, user, name);
    var stored := StoredAt(s, user, name);
    start <= |src| && start <= |stored| <= |src| && stored[..start] == src[..start]
  }

  /** An upload that runs to the end leaves exactly the source at
      `<user>/<name>`, whether it starts afresh or resumes a partial copy;
      the server reports success and both ledgers forget the name. */
  lemma UploadRoundTrip(s: Server, c: Client, user: string, name: string, src: seq<byte>)
    requires IsLong(Get(s.ledger, name))
    requires ResumableFrom(s, user, name, src)
    ensures var u := ClientUpload(c, name, Some(src), UploadOffer(s, user, name), Some(UploadDone));
            var o := HandleUpload(s, user, name, |src|, Inbound(u.sent, Eof));
            && o.open && o.replies == [Text(UploadOffer(s, user, name)), Text(UploadDone)]
            && StoredAt(o.server, user, name) == src
            && Get(o.server.ledger, name) == 0
            && u.open && Get(u.client.ledger, name) == 0
  {
    var start := UploadStart(s, user, name);
    OfferAgreed(Get(s.ledger, name), PathIndex(s.files, user, name).Some?);
    ClientSendsFrom(c, name, src, UploadOffer(s, user, name), start);
    ServerStoresRest(s, user, name, src);
  }

  /** The client, told to start at `start`, sends the source from there on
      and, once the completion arrives, forgets the name. */
  lemma ClientSendsFrom(c: Client, name: string, src: seq<byte>, offer: string, start: nat)
    requires StartOffset(offer) == Ok(start) && start <= |src|
    ensures var u := ClientUpload(c, name, Some(src), offer, Some(UploadDone));
            u.open && Get(u.client.ledger, name) == 0 && u.sent == src[start..]
  {
    if start == |src| {
      assert src[start..] == [];
    }
  }

  /** The server, sent the rest of the source from the offset it offered,
      ends up holding the whole source and forgets the name. */
  lemma ServerStoresRest(s: Server, user: string, name: string, src: seq<byte>)
    requires ResumableFrom(s, user, name, src)
    ensures var o := HandleUpload(s, user, name, |src|, Inbound(src[UploadStart(s, user, name)..], Eof));
            && o.open && o.replies == [Text(UploadOffer(s, user, name)), Text(UploadDone)]
            && StoredAt(o.server, user, name) == src
            && Get(o.server.ledger, name) == 0
  {
    var start := UploadStart(s, user, name);
    var stored := StoredAt(s, user, name);
    var sent := src[start..];
    var n := Copied(start, |src|, |sent|);
    assert sent[..n] == src[start..];
    ResumedWrite(stored, src, start);
    var o := HandleUpload(s, user, name, |src|, Inbound(sent, Eof));
    var written := WriteAt(stored, start, src[start..]);
    assert o.server.files == Store(s.files, user, name, written);
    assert written == written[..|src|];
  }

  /** The server keeps the offset an interrupted upload reached, offers it
      on the next attempt, and that attempt completes the file. */
  lemma ResumeAfterFault(s: Server, c: Client, user: string, name: string, src: seq<byte>, k: nat)
    requires Get(s.ledger, name) <= 0 && PathIndex(s.files, user, name).None?
    requires 0 < k < |src| && IsLong(k)
    ensures var first := HandleUpload(s, user, name, |src|, Inbound(src[..k], Fault));
            && !first.open
            && UploadOffer(first.server, user, name) == ResumeToken(k)
            && var u := ClientUpload(c, name, Some(src), ResumeToken(k), Some(UploadDone));
               var second := HandleUpload(first.server, user, name, |src|, Inbound(u.sent, Eof));
               second.open && StoredAt(second.server, user, name) == src
  {
    var first := HandleUpload(s, user, name, |src|, Inbound(src[..k], Fault));
    var s1 := first.server;
    assert Existing(s.files, user, name) == [];
    WriteAtBytes([], 0, src[..k]);
    var partial := WriteAt([], 0, src[..k]);
    assert partial == src[..k];
    assert src[..k][..Copied(0, |src|, k)] == src[..k];
    assert s1.files == Store(s.files, user, name, partial);
    assert StoredAt(s1, user, name) == src[..k];
    assert Get(s1.ledger, name) == k;
    UploadRoundTrip(s1, c, user, name, src);
  }

  /** Re-uploading a shorter version over an existing file from the start
      does not truncate it: the old bytes past the new length stay. */
  lemma ReuploadKeepsStaleTail(s: Server, c: Client, user: string, name: string, src: seq<byte>)
    requires Get(s.ledger, name) <= 0 && PathIndex(s.files, user, name).Some?
    requires |StoredAt(s, user, name)| > |src|
    ensures var u := ClientUpload(c, name, Some(src), StartToken, Some(UploadDone));
            var o := HandleUpload(s, user, name, |src|, Inbound(u.sent, Eof));
            var before := StoredAt(s, user, name);
            o.open && StoredAt(o.server, user, name) == src + before[|src|..]
  {
    assert StartOffset(StartToken) == Ok(0) by {
      assert !StartsWith(StartToken, ResumePrefix);
    }
    ClientSendsFrom(c, name, src, StartToken, 0);
    ServerOverwrites(s, user, name, src);
  }

  /** The server, sent a whole source over a longer file it does not offer
      to resume, writes the source over the start of the file. */
  lemma ServerOverwrites(s: Server, user: string, name: string, src: seq<byte>)
    requires Get(s.ledger, name) <= 0 && PathIndex(s.files, user, name).Some?
    requires |StoredAt(s, user, name)| > |src|
    ensures var o := HandleUpload(s, user, name, |src|, Inbound(src[0..], Eof));
            var before := StoredAt(s, user, name);
            o.open && StoredAt(o.server, user, name) == src + before[|src|..]
  {
    var before := StoredAt(s, user, name);
    var sent := src[0..];
    assert sent[..Copied(0, |src|, |sent|)] == src[0..];
    ResumedWrite(before, src, 0);
    var written := WriteAt(before, 0, src[0..]);
    assert written == written[..|src|] + written[|src|..];
  }

  /** The server's ledger is keyed by the bare name: an offset left by one
      user's interrupted upload makes another user's upload of a file with
      that name resume there, and the bytes before it are whatever that
      user's file already held. */
  lemma ResumeIgnoresOwner(s: Server, user: string, name: string, src: seq<byte>)
    requires Get(s.ledger, name) > 0 && PathIndex(s.files, user, name).Some?
    requires Get(s.ledger, name) <= |StoredAt(s, user, name)|
    ensures var k := Get(s.ledger, name);
            var o := HandleUpload(s, user, name, |src|, Inbound(if k < |src| then src[k..] else [], Eof));
            var stored := StoredAt(o.server, user, name);
            UploadOffer(s, user, name) == ResumeToken(k)
            && |stored| >= k && stored[..k] == StoredAt(s, user, name)[..k]
  {
    var k := Get(s.ledger, name);
    var before := StoredAt(s, user, name);
    var bytes: seq<byte> := if k < |src| then src[k..] else [];
    var n := Copied(k, |src|, |bytes|);
    WriteAtBytes(before, k, bytes[..n]);
  }

  /** A download that runs to the end leaves exactly the server's file in the
      client's download directory, whether it starts afresh or resumes a
      partial copy that agrees with the file up to the client's offset. */
  lemma DownloadRoundTrip(s: Server, c: Client, name: string)
    requires FindFile(s.files, name).Some?
    requires var n := Get(c.ledger, name);
             var partial := if name in c.downloads then c.downloads[name] else [];
             var content := s.files[FindFile(s.files, name).value].content;
             IsLong(n) && 0 <= n <= |content| && n <= |partial| <= |content| && partial[..n] == content[..n]
    ensures var content := s.files[FindFile(s.files, name).value].content;
            var token := Offer(Get(c.ledger, name), true);
            var o := HandleDownload(s, name, token);
            && o.open && |o.replies| == 3 && o.replies[2].Bytes?
            && var d := ClientDownload(c, name, FileFound, |content|, Inbound(o.replies[2].data, Eof));
               d.open && d.client.downloads[name] == content && Get(d.client.ledger, name) == 0
  {
    var n := Get(c.ledger, name);
    var content := s.files[FindFile(s.files, name).value].content;
    OfferAgreed(n, true);
    DownloadSends(s, name, n);
    assert (if n < |content| then content[n..] else []) == content[n..];
    ClientReceivesRest(c, name, content);
  }

  /** The client, sent the file from its own recorded offset on, ends up
      with the whole file and forgets the name, when its partial copy agrees
      with the file up to that offset. */
  lemma ClientReceivesRest(c: Client, name: string, content: seq<byte>)
    requires var n := Get(c.ledger, name);
             var partial := if name in c.downloads then c.downloads[name] else [];
             0 <= n <= |content| && n <= |partial| <= |content| && partial[..n] == content[..n]
    ensures var d := ClientDownload(c, name, FileFound, |content|, Inbound(content[Get(c.ledger, name)..], Eof));
            d.open && d.client.downloads[name] == content && Get(d.client.ledger, name) == 0
  {
    var n := Get(c.ledger, name);
    var partial := if name in c.downloads then c.downloads[name] else [];
    var bytes := content[n..];
    assert bytes[..Copied(n, |content|, |bytes|)] == content[n..];
    ResumedWrite(partial, content, n);
    var written := WriteAt(partial, n, content[n..]);
    assert written == written[..|content|];
  }

  /** A download clears the server's entry for the name, so an offset left
      by an interrupted upload of a file with that name is lost: the next
      upload starts over. */
  lemma DownloadDropsUploadOffset(s: Server, user: string, name: string, answer: string)
    requires Get(s.ledger, name) > 0 && FindFile(s.files, name).Some?
    requires HandleDownload(s, name, answer).open
    ensures UploadOffer(HandleDownload(s, name, answer).server, user, name) == StartToken
  {
  }

  /** The client's ledger is shared by uploads and downloads: an upload
      whose completion never arrives leaves the file's full length recorded,
      and a later download of that name resumes from there although nothing
      of it was downloaded. */
  lemma UploadEntrySkewsDownload(c: Client, name: string, content: seq<byte>, start: nat)
    requires IsLong(start) && start < |content| && IsLong(|content|)
    ensures var u := ClientUpload(c, name, Some(content), ResumeToken(start), None);
            var d := ClientDownload(u.client, name, FileFound, |content|, Inbound([], Eof));
            d.token == Some(ResumeToken(|content|))
  {
    StartOffsetOfResumeToken(start);
  }
}

=== FILE: file_client.dfy ===
/** The console client of the file server: the menu, and the upload,
    download and delete exchanges as the client side runs them, over the
    client's own resume ledger and its download directory. */
module FileClient {
  import opened JavaText
  import opened ResumeLedger
  import opened Transfer
  import opened Negotiation
  import FileServer

  /** The client's ledger (its own token file) and the files in its
      download directory, by name. */
  datatype Client = Client(ledger: Ledger, downloads: map<string, seq<byte>>)

  /** The menu line as typed, trimmed: it is sent to the server as the
      choice and selects the client's own handler. */
  function MenuChoice(line: string): (choice: string)
    ensures TrimOf(line, choice)
  {
    TrimIsTrimOf(line);
    Trim(line)
  }

  /** Blanks before and after the line, of any lengths, do not change the
      command: the client and the server act on the same trimmed text. */
  lemma MenuIgnoresBlanks(before: string, line: string, after: string)
    requires forall i :: 0 <= i < |before| ==> IsBlank(before[i])
    requires forall i :: 0 <= i < |after| ==> IsBlank(after[i])
    ensures MenuChoice(before + line + after) == MenuChoice(line)
  {
    TrimPadded(before, line, after);
  }

  /** The client's `switch` on the choice it has just sent: each of the
      five digit strings selects its own branch, anything else falls to the
      default branch. */
  function ClientCommand(choice: string): (c: Option<FileServer.Command>)
    ensures choice == "1" <==> c == Some(FileServer.UploadCmd)
    ensures choice == "2" <==> c == Some(FileServer.DownloadCmd)
    ensures choice == "3" <==> c == Some(FileServer.ListCmd)
    ensures choice == "4" <==> c == Some(FileServer.DeleteCmd)
    ensures choice == "5" <==> c == Some(FileServer.ExitCmd)
  {
    match choice
    case "1" => Some(FileServer.UploadCmd)
    case "2" => Some(FileServer.DownloadCmd)
    case "3" => Some(FileServer.ListCmd)
    case "4" => Some(FileServer.DeleteCmd)
    case "5" => Some(FileServer.ExitCmd)
    case _ => None
  }

  /** What one pass of the menu loop does before any handler runs: the
      choice sent, the branch taken, the server frames the menu itself reads
      and whether the loop goes on. `5` returns at once, reading nothing; the
      default branch reads exactly one frame, and a connection that has none
      left makes that read throw, which ends the client. The four handler
      branches read their own frames (`ClientUpload`, `ClientDownload`,
      `ClientDelete`). */
  datatype MenuTurn = MenuTurn(choice: string, command: Option<FileServer.Command>,
                               read: seq<FileServer.Reply>, goesOn: bool)

  function MenuStep(line: string, inbox: seq<FileServer.Reply>): (t: MenuTurn)
    ensures t.choice == MenuChoice(line) && t.command == ClientCommand(t.choice)
    ensures |t.read| <= 1 && |t.read| <= |inbox| && t.read == inbox[..|t.read|]
    ensures t.command == Some(FileServer.ExitCmd) ==> t.read == [] && !t.goesOn
    ensures t.command.None? ==> (t.goesOn <==> inbox != []) && (t.read != [] <==> inbox != [])
    ensures t.command.Some? && t.command != Some(FileServer.ExitCmd) ==> t.read == [] && t.goesOn
  {
    var choice := MenuChoice(line);
    var c := ClientCommand(choice);
    if c.Some? then MenuTurn(choice, c, [], c != Some(FileServer.ExitCmd))
    else if inbox == [] then MenuTurn(choice, None, [], false)
    else MenuTurn(choice, None, inbox[..1], true)
  }

  /** The client and the server take the same branch for every line typed;
      an invalid choice gets exactly the one `Invalid command.` frame the
      client's default branch reads, so the two stay in step; `5` ends both
      sides, and the server's `Goodbye!` is never read. */
  lemma MenuMatchesServer(s: FileServer.Server, user: string, line: string, args: FileServer.Args)
    ensures var choice := MenuChoice(line);
            ClientCommand(choice) == FileServer.ParseCommand(choice)
    ensures var choice := MenuChoice(line);
            var o := FileServer.HandleRequest(s, user, FileServer.Request(choice, args));
            var t := MenuStep(line, o.replies);
            && (t.command.None? ==> t.read == o.replies == [FileServer.Text(FileServer.InvalidCommand)] && t.goesOn && o.open)
            && (t.command == Some(FileServer.ExitCmd) ==>
                  o.replies == [FileServer.Text(FileServer.Goodbye)] && t.read == [] && !t.goesOn && !o.open)
  {
  }

  // ---------------------------------------------------------------------------
  // Upload

  /** What one client-side exchange leaves: the client, the bytes it wrote
      to the socket, and whether it goes back to the menu (an exception ends
      the client). */
  datatype Upload = Upload(client: Client, sent: seq<byte>, open: bool)

  /** `uploadFile`: a missing local file sends nothing more and returns to
      the menu. Otherwise the client reads its start offset from the
      server's token (a bad token throws, a negative offset makes the seek
      throw), sends the file from there in chunks, recording each total in
      its own ledger under the file name, and clears that entry only when
      the server's completion text is exactly the success message. No
      completion text (`None`) stands for a broken connection. */
  function ClientUpload(c: Client, name: string, local: Option<seq<byte>>, offer: string,
                        completion: Option<string>): (u: Upload)
    ensures local.None? ==> u == Upload(c, [], true)
    ensures u.client.downloads == c.downloads
    ensures forall k :: k != name ==> Get(u.client.ledger, k) == Get(c.ledger, k)
    ensures u.open && local.Some? ==> completion.Some?
    ensures u.open && local.Some? && completion == Some(FileServer.UploadDone) ==> Get(u.client.ledger, name) == 0
  {
    match local
    case None => Upload(c, [], true)
    case Some(content) =>
      match StartOffset(offer)
      case Err(_) => Upload(c, [], false)
      case Ok(start) =>
        if start < 0 then Upload(c, [], false)
        else
          var s := Send(content, start, c.ledger, name);
          match completion
          case None => Upload(c.(ledger := s.ledger), s.bytes, false)
          case Some(text) =>
            Upload(c.(ledger := if text == FileServer.UploadDone then Clear(s.ledger, name) else s.ledger),
                   s.bytes, true)
  }

  /** Any other completion text leaves the client's entry at the file's
      full length. */
  lemma UploadOtherTextKeepsEntry(c: Client, name: string, content: seq<byte>, start: nat, text: string)
    requires IsLong(start) && start < |content| && text != FileServer.UploadDone
    ensures var u := ClientUpload(c, name, Some(content), ResumeToken(start), Some(text));
            u.open && Get(u.client.ledger, name) == |content|
  {
    StartOffsetOfResumeToken(start);
  }

  // ---------------------------------------------------------------------------
  // Download

  datatype Download = Download(client: Client, token: Option<string>, open: bool)

  /** `downloadFile`: after `FILE_NOT_FOUND` nothing happens. Otherwise the
      client offers `RESUME:<n>` when its own ledger holds `n > 0` for the
      name (whether or not the partial file is still there) and `START`
      otherwise, opens `Downloads/<name>` (creating it), seeks to `n` (a
      negative `n` throws) and receives up to the announced size, recording
      each total. The entry is cleared once the loop ends, even when the
      stream ended early; only a failing stream keeps it. */
  function ClientDownload(c: Client, name: string, reply: string, size: int, stream: Inbound): (d: Download)
    ensures reply == FileServer.FileNotFound ==> d == Download(c, None, true)
    ensures reply != FileServer.FileNotFound ==> d.token == Some(Offer(Get(c.ledger, name), true))
    ensures reply != FileServer.FileNotFound ==> name in d.client.downloads
    ensures forall k :: k != name ==> Get(d.client.ledger, k) == Get(c.ledger, k)
    ensures forall k :: k != name && k in c.downloads ==> k in d.client.downloads && d.client.downloads[k] == c.downloads[k]
    ensures d.open && reply != FileServer.FileNotFound ==> Get(d.client.ledger, name) == 0
  {
    if reply == FileServer.FileNotFound then Download(c, None, true)
    else
      var n := Get(c.ledger, name);
      var token := Some(Offer(n, true));
      var file := if name in c.downloads then c.downloads[name] else [];
      if n < 0 then Download(c.(downloads := c.downloads[name := file]), token, false)
      else
        var r := Receive(file, n, size, stream, c.ledger, name);
        var downloads := c.downloads[name := r.file];
        if r.faulted then Download(c.(ledger := r.ledger, downloads := downloads), token, false)
        else Download(Client(Clear(r.ledger, name), downloads), token, true)
  }

  /** A stream that ends early without failing still clears the entry: the
      partial file stays, with nothing recorded to resume it. */
  lemma ShortDownloadForgetsOffset(c: Client, name: string, reply: string, size: int, bytes: seq<byte>)
    requires reply != FileServer.FileNotFound && Get(c.ledger, name) == 0
    requires 0 < |bytes| < size
    ensures var d := ClientDownload(c, name, reply, size, Inbound(bytes, Eof));
            d.open && Get(d.client.ledger, name) == 0
            && |d.client.downloads[name]| >= |bytes| && d.client.downloads[name][..|bytes|] == bytes
  {
    var file := if name in c.downloads then c.downloads[name] else [];
    assert bytes[..|bytes|] == bytes;
    WriteAtBytes(file, 0, bytes);
  }

  /** A failing stream keeps the offset reached, for the next attempt. */
  lemma FailedDownloadKeepsOffset(c: Client, name: string, reply: string, size: int, bytes: seq<byte>)
    requires reply != FileServer.FileNotFound && Get(c.ledger, name) >= 0
    requires 0 < |bytes| < size - Get(c.ledger, name)
    ensures var d := ClientDownload(c, name, reply, size, Inbound(bytes, Fault));
            !d.open && Get(d.client.ledger, name) == Get(c.ledger, name) + |bytes|
  {
  }

  // ---------------------------------------------------------------------------
  // Delete

  /** `deleteFile`: the client forgets its entry for the name only when the
      server reports `DELETION_SUCCESS`. */
  function ClientDelete(c: Client, name: string, reply: string): (r: Client)
    ensures r.downloads == c.downloads
    ensures reply == FileServer.DeletionSuccess ==> Get(r.ledger, name) == 0
    ensures reply != FileServer.DeletionSuccess ==> r == c
    ensures forall k :: k != name ==> Get(r.ledger, k) == Get(c.ledger, k)
  {
    if reply == FileServer.DeletionSuccess then c.(ledger := Clear(c.ledger, name)) else c
  }
}

=== FILE: file_server.dfy ===
/** The file server's per-connection handler: the greeting, the numeric
    command loop and the upload, download, list and delete handlers, over
    the server's ledger, user list, catalog and upload tree. Each handler
    is a function from the state and what the client sends to the new state
    and what the server sends back. */
module FileServer {
  import opened JavaText
  import opened ResumeLedger
  import opened Transfer
  import opened Negotiation
  import opened Catalog

  datatype Server = Server(ledger: Ledger, users: seq<string>, catalog: seq<string>, files: seq<StoredFile>)

  /** A frame the server writes: a `writeUTF` text, a `writeLong` or
      `writeInt` number, or raw file bytes. */
  datatype Reply = Text(text: string) | Number(value: int) | Bytes(data: seq<byte>)

  /** The state after a handler, the frames it sent, and whether the command
      loop goes on: an exception in a handler ends the connection, and so
      does the exit command. */
  datatype Outcome = Outcome(server: Server, replies: seq<Reply>, open: bool)

  const UploadDone: string := "File uploaded successfully."
  const FileFound: string := "FILE_FOUND"
  const FileNotFound: string := "FILE_NOT_FOUND"
  const PermissionDenied: string := "PERMISSION_DENIED"
  const DeletionSuccess: string := "DELETION_SUCCESS"
  const DeletionFailed: string := "DELETION_FAILED"
  const Goodbye: string := "Goodbye!"
  const InvalidCommand: string := "Invalid command."

  // ---------------------------------------------------------------------------
  // Upload

  /** Whether the client's stream fails before the declared size arrives. */
  predicate UploadFaults(start: nat, size: int, payload: Inbound) {
    start < size && |payload.bytes| < size - start && payload.end == Fault
  }

  /** `handleUpload`: offer `RESUME:<n>` when the ledger holds `n > 0` for the
      bare file name and `<user>/<name>` exists, else `START` and offset 0;
      receive into the file from that offset, recording each cumulative
      total under the bare name; then clear the entry, append `user,name` to
      the catalog and report success. A clean end of stream before the
      declared size also ends the loop and still reports success; only a
      failing stream ends the connection, keeping the last recorded offset. */
  function HandleUpload(s: Server, user: string, name: string, size: int, payload: Inbound): (o: Outcome)
    ensures o.server.users == s.users
    ensures PathIndex(o.server.files, user, name).Some?
    ensures o.server.files == Store(s.files, user, name, o.server.files[PathIndex(o.server.files, user, name).value].content)
    ensures |o.replies| >= 1
    ensures o.replies[0] == Text(Offer(Get(s.ledger, name), PathIndex(s.files, user, name).Some?))
    ensures o.open <==> !UploadFaults(OfferedStart(Get(s.ledger, name), PathIndex(s.files, user, name).Some?), size, payload)
    ensures o.open ==> Get(o.server.ledger, name) == 0
    ensures o.open ==> o.server.catalog == AppendMetadata(s.catalog, user, name)
    ensures o.open ==> o.replies[|o.replies| - 1] == Text(UploadDone)
    ensures !o.open ==> o.server.catalog == s.catalog
    ensures forall k :: k != name ==> Get(o.server.ledger, k) == Get(s.ledger, k)
  {
    var recorded := Get(s.ledger, name);
    var present := PathIndex(s.files, user, name).Some?;
    var start := OfferedStart(recorded, present);
    var offer := Text(Offer(recorded, present));
    var r := Receive(Existing(s.files, user, name), start, size, payload, s.ledger, name);
    var files := Store(s.files, user, name, r.file);
    if r.faulted then
      Outcome(s.(ledger := r.ledger, files := files), [offer], false)
    else
      Outcome(s.(ledger := Clear(r.ledger, name),
                 catalog := AppendMetadata(s.catalog, user, name),
                 files := files),
              [offer, Text(UploadDone)], true)
  }

  /** What the upload leaves in `<user>/<name>`: the old bytes (none for a
      new file) with the received prefix of the stream written at the
      negotiated offset. */
  lemma UploadContent(s: Server, user: string, name: string, size: int, payload: Inbound)
    ensures var o := HandleUpload(s, user, name, size, payload);
            var start := OfferedStart(Get(s.ledger, name), PathIndex(s.files, user, name).Some?);
            o.server.files[PathIndex(o.server.files, user, name).value].content
            == WriteAt(Existing(s.files, user, name), start, payload.bytes[..Copied(start, size, |payload.bytes|)])
  {
  }

  /** A failing stream keeps the offset reached, so that the next attempt
      can resume from it; nothing is catalogued. */
  lemma UploadFaultKeepsOffset(s: Server, user: string, name: string, size: int, payload: Inbound)
    requires var start := OfferedStart(Get(s.ledger, name), PathIndex(s.files, user, name).Some?);
             UploadFaults(start, size, payload) && |payload.bytes| > 0
    ensures var o := HandleUpload(s, user, name, size, payload);
            var start := OfferedStart(Get(s.ledger, name), PathIndex(s.files, user, name).Some?);
            !o.open && Get(o.server.ledger, name) == start + |payload.bytes|
  {
  }

  // ---------------------------------------------------------------------------
  // Download

  /** `handleDownload`: an unknown name gets `FILE_NOT_FOUND` and nothing
      else happens. Otherwise the first file of that name in walk order, of
      whatever owner, is announced with its length; the client's token gives
      the start offset (a bad token or a negative offset throws and ends the
      connection), the bytes from there on are sent, and the ledger entry for
      the name is cleared. */
  function HandleDownload(s: Server, name: string, answer: string): (o: Outcome)
    ensures FindFile(s.files, name).None? ==> o == Outcome(s, [Text(FileNotFound)], true)
    ensures FindFile(s.files, name).Some? ==>
              |o.replies| >= 2 && o.replies[..2] == [Text(FileFound), Number(|s.files[FindFile(s.files, name).value].content|)]
    ensures o.server.files == s.files && o.server.catalog == s.catalog && o.server.users == s.users
    ensures o.open && FindFile(s.files, name).Some? ==> Get(o.server.ledger, name) == 0
    ensures forall k :: k != name ==> Get(o.server.ledger, k) == Get(s.ledger, k)
  {
    match FindFile(s.files, name)
    case None => Outcome(s, [Text(FileNotFound)], true)
    case Some(i) =>
      var content := s.files[i].content;
      var head := [Text(FileFound), Number(|content|)];
      match StartOffset(answer)
      case Err(_) => Outcome(s, head, false)
      case Ok(start) =>
        if start < 0 then Outcome(s, head, false)
        else
          var sent := Send(content, start, s.ledger, name);
          Outcome(s.(ledger := Clear(sent.ledger, name)), head + [Bytes(sent.bytes)], true)
  }

  /** The bytes a download sends: the file from the negotiated offset on. */
  lemma DownloadSends(s: Server, name: string, start: nat)
    requires FindFile(s.files, name).Some? && IsLong(start)
    ensures var content := s.files[FindFile(s.files, name).value].content;
            var o := HandleDownload(s, name, Offer(start, true));
            o.open && o.replies[2] == Bytes(if start < |content| then content[start..] else [])
  {
    OfferAgreed(start, true);
  }

  // ---------------------------------------------------------------------------
  // List and delete

  /** `handleList`: the number of files, then each bare name in walk order. */
  function HandleList(s: Server): (o: Outcome)
    ensures o.server == s && o.open
    ensures |o.replies| == |s.files| + 1 && o.replies[0] == Number(|s.files|)
    ensures forall i :: 0 <= i < |s.files| ==> o.replies[i + 1] == Text(s.files[i].name)
  {
    Outcome(s, [Number(|s.files|)] + seq(|s.files|, i requires 0 <= i < |s.files| => Text(s.files[i].name)), true)
  }

  /** `handleDelete`: ownership is checked first, against the catalog; then
      the first file of that name in walk order is looked up, whoever owns
      it. If the file system deletes it, every catalog line for the name is
      removed and the ledger entry cleared; a catalog line with fewer than two
      fields makes the removal throw after the file is already gone, which
      ends the connection. */
  function HandleDelete(s: Server, user: string, name: string): (o: Outcome)
    ensures !IsOwner(s.catalog, user, name) ==> o == Outcome(s, [Text(PermissionDenied)], true)
    ensures IsOwner(s.catalog, user, name) && FindFile(s.files, name).None? ==>
              o == Outcome(s, [Text(FileNotFound)], true)
    ensures IsOwner(s.catalog, user, name) && FindFile(s.files, name).Some? && s.files[FindFile(s.files, name).value].locked ==>
              o == Outcome(s, [Text(DeletionFailed)], true)
    ensures IsOwner(s.catalog, user, name) && FindFile(s.files, name).Some? && !s.files[FindFile(s.files, name).value].locked
            && RemoveMetadata(s.catalog, name).Err? ==>
              o == Outcome(s.(files := Without(s.files, FindFile(s.files, name).value)), [], false)
    ensures o.replies == [Text(DeletionSuccess)] ==>
              && FindFile(s.files, name).Some?
              && o.server.files == Without(s.files, FindFile(s.files, name).value)
              && RemoveMetadata(s.catalog, name) == Ok(o.server.catalog)
              && o.server.ledger == Clear(s.ledger, name)
              && forall u :: !IsOwner(o.server.catalog, u, name)
    ensures o.replies != [Text(DeletionSuccess)] ==> o.server.catalog == s.catalog && o.server.ledger == s.ledger
    ensures o.server.users == s.users
  {
    if !IsOwner(s.catalog, user, name) then Outcome(s, [Text(PermissionDenied)], true)
    else
      match FindFile(s.files, name)
      case None => Outcome(s, [Text(FileNotFound)], true)
      case Some(i) =>
        if s.files[i].locked then Outcome(s, [Text(DeletionFailed)], true)
        else
          var files := Without(s.files, i);
          match RemoveMetadata(s.catalog, name)
          case Err(_) => Outcome(s.(files := files), [], false)
          case Ok(kept) =>
            RemovedNotOwnedAll(s.catalog, name);
            Outcome(s.(files := files, catalog := kept, ledger := Clear(s.ledger, name)),
                    [Text(DeletionSuccess)], true)
  }

  lemma RemovedNotOwnedAll(lines: seq<string>, name: string)
    requires RemoveMetadata(lines, name).Ok?
    ensures forall u :: !IsOwner(RemoveMetadata(lines, name).value, u, name)
  {
    forall u
      ensures !IsOwner(RemoveMetadata(lines, name).value, u, name)
    {
      RemovedNotOwned(lines, name, u);
    }
  }

  /** Ownership is checked by name in the catalog, but the file deleted is
      the first of that name in walk order: a user who owns `x` can delete
      another user's `x`. */
  lemma DeleteReachesOtherOwner()
    ensures var bobs := StoredFile("bob", "x", [1], false);
            var alices := StoredFile("alice", "x", [2], false);
            var s := Server(map[], ["alice", "bob"], ["alice,x"], [bobs, alices]);
            var o := HandleDelete(s, "alice", "x");
            o.replies == [Text(DeletionSuccess)] && o.server.files == [alices]
  {
    var bobs := StoredFile("bob", "x", [1], false);
    var alices := StoredFile("alice", "x", [2], false);
    var s := Server(map[], ["alice", "bob"], ["alice,x"], [bobs, alices]);
    AliceOwnsX();
    assert FindFile(s.files, "x") == Some(0);
    assert Without(s.files, 0) == [alices];
  }

  /** The one-line catalog `alice,x` makes alice the owner of `x`, and
      removing `x` from it leaves it empty. */
  lemma AliceOwnsX()
    ensures IsOwner(["alice,x"], "alice", "x")
    ensures RemoveMetadata(["alice,x"], "x") == Ok([])
  {
    var catalog := ["alice,x"];
    SplitPair("alice", ',', "x");
    assert "alice,x" == "alice" + [','] + "x";
    assert Split(catalog[0], ',') == ["alice", "x"];
    SplitSecondIsSplit("alice,x", ',');
    RemoveMetadataLast(catalog, "x");
    assert catalog[..0] == [];
  }

  // ---------------------------------------------------------------------------
  // The command loop

  datatype Command = UploadCmd | DownloadCmd | ListCmd | DeleteCmd | ExitCmd

  /** The menu choice as the server reads it: `toLowerCase` cannot turn any
      other text into one of the digit strings, so only `"1"` to `"5"`
      select a command. */
  function ParseCommand(choice: string): (c: Option<Command>)
    ensures c.Some? <==> choice in ["1", "2", "3", "4", "5"]
  {
    if choice == "1" then Some(UploadCmd)
    else if choice == "2" then Some(DownloadCmd)
    else if choice == "3" then Some(ListCmd)
    else if choice == "4" then Some(DeleteCmd)
    else if choice == "5" then Some(ExitCmd)
    else None
  }

  /** What the client sends after the choice: the frames each handler reads
      next. */
  datatype Args =
    | NoArgs
    | UploadArgs(name: string, size: int, payload: Inbound)
    | DownloadArgs(name: string, answer: string)
    | DeleteArgs(name: string)

  datatype Request = Request(choice: string, args: Args)

  /** Whether the frames that follow the choice are the ones its handler
      reads. */
  predicate Fits(c: Command, args: Args) {
    match c
    case UploadCmd => args.UploadArgs?
    case DownloadCmd => args.DownloadArgs?
    case DeleteCmd => args.DeleteArgs?
    case _ => true
  }

  /** One turn of the command loop. A choice outside 1 to 5 gets
      `Invalid command.` and the loop goes on; `5` says goodbye and ends the
      session. Arguments that do not fit the choice stand for a client that
      broke the framing: the connection ends. */
  function HandleRequest(s: Server, user: string, r: Request): (o: Outcome)
    ensures ParseCommand(r.choice).None? ==> o == Outcome(s, [Text(InvalidCommand)], true)
    ensures ParseCommand(r.choice) == Some(ExitCmd) ==> o == Outcome(s, [Text(Goodbye)], false)
    ensures ParseCommand(r.choice) == Some(UploadCmd) && r.args.UploadArgs? ==>
              o == HandleUpload(s, user, r.args.name, r.args.size, r.args.payload)
    ensures ParseCommand(r.choice) == Some(DownloadCmd) && r.args.DownloadArgs? ==>
              o == HandleDownload(s, r.args.name, r.args.answer)
    ensures ParseCommand(r.choice) == Some(ListCmd) ==> o == HandleList(s)
    ensures ParseCommand(r.choice) == Some(DeleteCmd) && r.args.DeleteArgs? ==> o == HandleDelete(s, user, r.args.name)
    ensures ParseCommand(r.choice).Some? && !Fits(ParseCommand(r.choice).value, r.args) ==> o == Outcome(s, [], false)
    ensures o.server.users == s.users
  {
    match ParseCommand(r.choice)
    case None => Outcome(s, [Text(InvalidCommand)], true)
    case Some(c) =>
      if !Fits(c, r.args) then Outcome(s, [], false)
      else
        match c
        case UploadCmd => HandleUpload(s, user, r.args.name, r.args.size, r.args.payload)
        case DownloadCmd => HandleDownload(s, r.args.name, r.args.answer)
        case ListCmd => HandleList(s)
        case DeleteCmd => HandleDelete(s, user, r.args.name)
        case ExitCmd => Outcome(s, [Text(Goodbye)], false)
  }

  /** The command loop over the requests the client sends, until one of
      them ends the session (or the requests run out, leaving it open). */
  function Serve(s: Server, user: string, requests: seq<Request>): (o: Outcome)
    ensures o.server.users == s.users
    ensures o.open ==> forall i :: 0 <= i < |requests| ==> ParseCommand(requests[i].choice) != Some(ExitCmd)
    decreases |requests|
  {
    if |requests| == 0 then Outcome(s, [], true)
    else
      var first := HandleRequest(s, user, requests[0]);
      if !first.open then first
      else
        var rest := Serve(first.server, user, requests[1..]);
        Outcome(rest.server, first.replies + rest.replies, rest.open)
  }

  /** `run`: read the greeting and the user name, register the user, welcome
      them, then run the command loop. */
  function Session(s: Server, user: string, requests: seq<Request>): (o: Outcome)
    ensures user in o.server.users
    ensures |o.replies| >= 1 && o.replies[0] == Text("Welcome, " + user)
  {
    var joined := s.(users := AddUser(s.users, user));
    var served := Serve(joined, user, requests);
    Outcome(served.server, [Text("Welcome, " + user)] + served.replies, served.open)
  }

  /** Nothing the client sends after the session ended is read. */
  lemma {:induction false} ServeIgnoresAfterEnd(s: Server, user: string, a: seq<Request>, b: seq<Request>)
    requires !Serve(s, user, a).open
    ensures Serve(s, user, a + b) == Serve(s, user, a)
    decreases |a|
  {
    if |a| > 0 {
      assert (a + b)[0] == a[0];
      assert (a + b)[1..] == a[1..] + b;
      var first := HandleRequest(s, user, a[0]);
      if first.open {
        ServeIgnoresAfterEnd(first.server, user, a[1..], b);
      }
    }
  }

  /** The exit command ends the session at once, whatever follows it. */
  lemma ExitEndsSession(s: Server, user: string, rest: seq<Request>)
    ensures Serve(s, user, [Request("5", NoArgs)] + rest) == Outcome(s, [Text(Goodbye)], false)
  {
    assert ([Request("5", NoArgs)] + rest)[0] == Request("5", NoArgs);
  }

  // ---------------------------------------------------------------------------
  // What every session keeps

  /** The server's records stay consistent: no user listed twice, no path
      stored twice, every catalog line with two fields. */
  predicate Consistent(s: Server) {
    Distinct(s.users) && UniquePaths(s.files) && WellFormed(s.catalog)
  }

  /** A request whose file name can be catalogued for `user`. */
  predicate Catalogable(user: string, r: Request) {
    r.args.UploadArgs? ==> Recordable(user, r.args.name)
  }

  lemma HandleRequestKeepsConsistent(s: Server, user: string, r: Request)
    requires Consistent(s) && Catalogable(user, r)
    ensures Consistent(HandleRequest(s, user, r).server)
  {
    match ParseCommand(r.choice)
    case None =>
    case Some(c) =>
      if Fits(c, r.args) {
        match c
        case UploadCmd =>
          var name := r.args.name;
          var recorded := Get(s.ledger, name);
          var present := PathIndex(s.files, user, name).Some?;
          var rc := Receive(Existing(s.files, user, name), OfferedStart(recorded, present),
                            r.args.size, r.args.payload, s.ledger, name);
          StoreKeepsUniquePaths(s.files, user, name, rc.file);
          AppendKeepsWellFormed(s.catalog, user, name);
        case DownloadCmd =>
        case ListCmd =>
        case DeleteCmd =>
          var name := r.args.name;
          if IsOwner(s.catalog, user, name) && FindFile(s.files, name).Some? {
            WithoutKeepsUniquePaths(s.files, FindFile(s.files, name).value);
            RemoveKeepsWellFormed(s.catalog, name);
          }
        case ExitCmd =>
      }
  }

  /** A whole session keeps the records consistent, and on a consistent
      server a delete never hits the malformed-line failure. */
  lemma {:induction false} SessionKeepsConsistent(s: Server, user: string, requests: seq<Request>)
    requires Consistent(s)
    requires forall i :: 0 <= i < |requests| ==> Catalogable(user, requests[i])
    ensures Consistent(Session(s, user, requests).server)
  {
    AddUserIdempotent(s.users, user);
    ServeKeepsConsistent(s.(users := AddUser(s.users, user)), user, requests);
  }

  lemma {:induction false} ServeKeepsConsistent(s: Server, user: string, requests: seq<Request>)
    requires Consistent(s)
    requires forall i :: 0 <= i < |requests| ==> Catalogable(user, requests[i])
    ensures Consistent(Serve(s, user, requests).server)
    decreases |requests|
  {
    if |requests| > 0 {
      HandleRequestKeepsConsistent(s, user, requests[0]);
      var first := HandleRequest(s, user, requests[0]);
      if first.open {
        ServeKeepsConsistent(first.server, user, requests[1..]);
      }
    }
  }

  /** On a consistent server an owner's delete of an existing, deletable
      file always succeeds. */
  lemma OwnerDeleteSucceeds(s: Server, user: string, name: string)
    requires Consistent(s) && IsOwner(s.catalog, user, name)
    requires FindFile(s.files, name).Some? && !s.files[FindFile(s.files, name).value].locked
    ensures HandleDelete(s, user, name).replies == [Text(DeletionSuccess)]
    ensures HandleDelete(s, user, name).open
  {
    RemoveKeepsWellFormed(s.catalog, name);
  }
}

=== FILE: java_text.dfy ===
/** The slice of the Java library the file server and the chat server lean on:
    `String.split` with a one-character separator (with and without a limit),
    `startsWith`, `trim`, and the decimal text of a `long` (`Long.toString` and
    `Long.parseLong`). Exceptions become `Err` values. */
module JavaText {

  datatype Option<T> = None | Some(value: T)

  /** A value, or the failure a Java exception would have signalled. */
  datatype Result<T> = Ok(value: T) | Err(reason: string)

  function Min(a: int, b: int): int { if a <= b then a else b }

  function Max(a: int, b: int): int { if a >= b then a else b }

  predicate StartsWith(s: string, prefix: string) {
    |prefix| <= |s| && s[..|prefix|] == prefix
  }

  // ---------------------------------------------------------------------------
  // Splitting and joining on one separator character

  /** Position of the first `d` in `s`, or `|s|` when `d` does not occur. */
  function IndexOf(s: string, d: char): (i: nat)
    ensures i <= |s|
    ensures i < |s| ==> s[i] == d
    ensures forall j :: 0 <= j < i ==> s[j] != d
  {
    if |s| == 0 || s[0] == d then 0 else IndexOf(s[1..], d) + 1
  }

  /** `d` occurs in `s` exactly when `IndexOf` stops before the end. */
  lemma IndexOfIn(s: string, d: char)
    ensures IndexOf(s, d) < |s| <==> d in s
  {
  }

  /** The first `d` of `a + [d] + b` is the one right after `a`, when `a`
      holds none. */
  lemma IndexOfAfter(a: string, d: char, b: string)
    requires d !in a
    ensures IndexOf(a + [d] + b, d) == |a|
  {
    var s := a + [d] + b;
    assert s[|a|] == d;
  }

  /** `fields` with `d` between consecutive ones. */
  function Join(fields: seq<string>, d: char): string
  {
    if |fields| == 0 then ""
    else if |fields| == 1 then fields[0]
    else fields[0] + [d] + Join(fields[1..], d)
  }

  /** Every field of `s` between occurrences of `d`, empty fields included. */
  function Fields(s: string, d: char): (r: seq<string>)
    ensures |r| >= 1
    ensures forall i :: 0 <= i < |r| ==> d !in r[i]
    ensures Join(r, d) == s
    decreases |s|
  {
    var i := IndexOf(s, d);
    if i == |s| then [s]
    else
      var rest := Fields(s[i + 1..], d);
      assert ([s[..i]] + rest)[1..] == rest;
      assert s == s[..i] + [d] + s[i + 1..];
      [s[..i]] + rest
  }

  /** The longest prefix of `fs` that does not end in an empty field. */
  function DropTrailingEmpty(fs: seq<string>): (r: seq<string>)
    ensures |r| <= |fs| && r == fs[..|r|]
    ensures |r| > 0 ==> r[|r| - 1] != ""
    ensures forall i :: |r| <= i < |fs| ==> fs[i] == ""
  {
    if |fs| > 0 && fs[|fs| - 1] == "" then DropTrailingEmpty(fs[..|fs| - 1]) else fs
  }

  /** `s.split(d)`: when `d` does not occur the result is `[s]` (even for the
      empty string); otherwise the fields between separators with trailing empty
      fields removed. */
  function Split(s: string, d: char): seq<string>
  {
    if d !in s then [s] else DropTrailingEmpty(Fields(s, d))
  }

  /** The fields `split` returns hold no separator, and unless `d` is absent
      the last one is not empty. */
  lemma SplitShape(s: string, d: char)
    ensures forall i :: 0 <= i < |Split(s, d)| ==> d !in Split(s, d)[i]
    ensures d !in s ==> Split(s, d) == [s]
    ensures d in s && |Split(s, d)| > 0 ==> Split(s, d)[|Split(s, d)| - 1] != ""
  {
  }

  /** Whether `s` holds nothing but `d`. */
  predicate OnlySeparators(s: string, d: char) {
    forall k :: 0 <= k < |s| ==> s[k] == d
  }

  /** The joined text of separator-free fields holds nothing but separators
      exactly when every field is empty. */
  lemma {:induction false} JoinOnlySeparators(fs: seq<string>, d: char)
    requires forall i :: 0 <= i < |fs| ==> d !in fs[i]
    ensures OnlySeparators(Join(fs, d), d) <==> forall i :: 0 <= i < |fs| ==> fs[i] == ""
    decreases |fs|
  {
    if |fs| == 1 {
      if fs[0] != "" {
        assert fs[0][0] in fs[0];
      }
    } else if |fs| > 1 {
      var rest := Join(fs[1..], d);
      var s := fs[0] + [d] + rest;
      JoinOnlySeparators(fs[1..], d);
      assert Join(fs, d) == s;
      if fs[0] != "" {
        assert fs[0][0] in fs[0];
        assert s[0] == fs[0][0];
      } else if OnlySeparators(s, d) {
        forall k | 0 <= k < |rest|
          ensures rest[k] == d
        {
          assert rest[k] == s[k + 1];
        }
      }
    }
  }

  /** The second field `s.split(d)` returns, read off directly: the text
      after the first `d` up to the next one, absent when `d` does not occur
      or only separators follow its first occurrence. */
  function SplitSecond(s: string, d: char): Option<string> {
    var i := IndexOf(s, d);
    if i == |s| then None
    else
      var rest := s[i + 1..];
      if OnlySeparators(rest, d) then None else Some(rest[..IndexOf(rest, d)])
  }

  /** `SplitSecond` is the second element of `split`, present exactly when
      `split` returns at least two fields. */
  lemma SplitSecondIsSplit(s: string, d: char)
    ensures SplitSecond(s, d) == (if |Split(s, d)| < 2 then None else Some(Split(s, d)[1]))
  {
    var i := IndexOf(s, d);
    IndexOfIn(s, d);
    if i < |s| {
      var rest := s[i + 1..];
      var fs := Fields(s, d);
      var tail := Fields(rest, d);
      assert fs == [s[..i]] + tail;
      var r := DropTrailingEmpty(fs);
      JoinOnlySeparators(tail, d);
      if !OnlySeparators(rest, d) {
        var j :| 0 <= j < |tail| && tail[j] != "";
        assert fs[j + 1] == tail[j];
        assert r[1] == fs[1] == tail[0] == rest[..IndexOf(rest, d)];
      }
    }
  }

  /** `s.split(d, limit)` for a positive limit: at most `limit - 1` splits, the
      last field holds the rest of `s`, and empty fields are kept. */
  function SplitLimit(s: string, d: char, limit: nat): (r: seq<string>)
    requires limit >= 1
    ensures 1 <= |r| <= limit
    decreases limit
  {
    var i := IndexOf(s, d);
    if limit == 1 || i == |s| then [s]
    else [s[..i]] + SplitLimit(s[i + 1..], d, limit - 1)
  }

  /** Every field but the last is free of `d`, and so is the last one when
      the limit was not reached. */
  lemma {:induction false} SplitLimitShape(s: string, d: char, limit: nat)
    requires limit >= 1
    ensures var r := SplitLimit(s, d, limit);
            (forall i :: 0 <= i < |r| - 1 ==> d !in r[i]) && (|r| < limit ==> d !in r[|r| - 1])
    decreases limit
  {
    var i := IndexOf(s, d);
    if limit > 1 && i < |s| {
      SplitLimitShape(s[i + 1..], d, limit - 1);
      var rest := SplitLimit(s[i + 1..], d, limit - 1);
      var r := [s[..i]] + rest;
      assert SplitLimit(s, d, limit) == r;
      forall j | 0 <= j < |r| - 1
        ensures d !in r[j]
      {
        if j > 0 {
          assert r[j] == rest[j - 1];
        }
      }
    }
  }

  /** Joining the fields `split(d, limit)` returns gives the text back. */
  lemma {:induction false} JoinOfSplitLimit(s: string, d: char, limit: nat)
    requires limit >= 1
    ensures Join(SplitLimit(s, d, limit), d) == s
    decreases limit
  {
    var i := IndexOf(s, d);
    if limit > 1 && i < |s| {
      JoinOfSplitLimit(s[i + 1..], d, limit - 1);
      JoinAround(s, i, d, SplitLimit(s[i + 1..], d, limit - 1));
    }
  }

  /** `split(d, limit)` returns one field more than `s` holds separators,
      but never more than `limit`: a line with fewer separators than the
      limit needs gives fewer fields. */
  lemma SplitLimitCount(s: string, d: char, limit: nat)
    requires limit >= 1
    ensures |SplitLimit(s, d, limit)| == Min(multiset(s)[d] + 1, limit)
  {
    CountedFields(s, d, limit);
  }

  predicate FieldCount(s: string, d: char, limit: nat)
    requires limit >= 1
  {
    |SplitLimit(s, d, limit)| == Min(multiset(s)[d] + 1, limit)
  }

  lemma {:induction false} CountedFields(s: string, d: char, limit: nat)
    requires limit >= 1
    ensures FieldCount(s, d, limit)
    decreases limit
  {
    var i := IndexOf(s, d);
    if i == |s| {
      assert SplitLimit(s, d, limit) == [s];
      assert d !in multiset(s);
    } else if limit > 1 {
      var head, rest := s[..i], s[i + 1..];
      assert s == head + [d] + rest;
      CountedFields(rest, d, limit - 1);
      ConsCounted(head, d, rest, limit);
    }
  }

  /** A separator in front of `rest` adds one to both sides of the count. */
  lemma ConsCounted(head: string, d: char, rest: string, limit: nat)
    requires d !in head && limit >= 2 && FieldCount(rest, d, limit - 1)
    ensures FieldCount(head + [d] + rest, d, limit)
  {
    var s := head + [d] + rest;
    SplitLimitCons(head, d, rest, limit, limit - 1);
    assert |SplitLimit(s, d, limit)| == 1 + |SplitLimit(rest, d, limit - 1)|;
    CountCons(head, d, rest);
  }

  lemma CountCons(head: string, d: char, rest: string)
    requires d !in head
    ensures multiset(head + [d] + rest)[d] == multiset(rest)[d] + 1
  {
    assert d !in multiset(head);
    assert multiset(head + [d] + rest) == multiset(head) + multiset([d]) + multiset(rest);
  }

  /** Cutting `s` at a separator at `i`: the part before it, joined to fields
      that join to the part after it, gives `s` back. */
  lemma JoinAround(s: string, i: nat, d: char, rest: seq<string>)
    requires i < |s| && s[i] == d && |rest| >= 1 && Join(rest, d) == s[i + 1..]
    ensures Join([s[..i]] + rest, d) == s
  {
    assert ([s[..i]] + rest)[1..] == rest;
    assert s == s[..i] + [d] + s[i + 1..];
  }

  /** Splitting the joined text gives the fields back when no field holds `d`. */
  lemma FieldsOfJoin(fs: seq<string>, d: char)
    requires |fs| >= 1
    requires forall i :: 0 <= i < |fs| ==> d !in fs[i]
    ensures Fields(Join(fs, d), d) == fs
  {
    FieldsOfJoined(Join(fs, d), fs, d);
  }

  predicate FieldsAre(s: string, d: char, fs: seq<string>) {
    Fields(s, d) == fs
  }

  lemma {:induction false} FieldsOfJoined(s: string, fs: seq<string>, d: char)
    requires |fs| >= 1 && s == Join(fs, d)
    requires forall i :: 0 <= i < |fs| ==> d !in fs[i]
    ensures FieldsAre(s, d, fs)
    decreases |fs|
  {
    if |fs| > 1 {
      var rest := Join(fs[1..], d);
      JoinCons(fs, d);
      assert d !in fs[0];
      FieldsOfJoined(rest, fs[1..], d);
      ConsFields(s, rest, fs, d);
    } else {
      assert s == fs[0];
      IndexOfIn(s, d);
    }
  }

  /** Cutting off a first field that holds no `d` leaves the fields of the rest. */
  lemma ConsFields(s: string, rest: string, fs: seq<string>, d: char)
    requires |fs| >= 1 && d !in fs[0] && s == fs[0] + [d] + rest
    requires FieldsAre(rest, d, fs[1..])
    ensures FieldsAre(s, d, fs)
  {
    IndexOfAfter(fs[0], d, rest);
    assert s[..|fs[0]|] == fs[0];
    assert s[|fs[0]| + 1..] == rest;
    assert fs == [fs[0]] + fs[1..];
  }

  /** `split` undoes `Join` for two or more separator-free fields whose last one
      is not empty. */
  lemma SplitOfJoin(fs: seq<string>, d: char)
    requires |fs| >= 2
    requires forall i :: 0 <= i < |fs| ==> d !in fs[i]
    requires fs[|fs| - 1] != ""
    ensures Split(Join(fs, d), d) == fs
  {
    FieldsOfJoin(fs, d);
    assert Join(fs, d) == fs[0] + [d] + Join(fs[1..], d);
    assert (fs[0] + [d] + Join(fs[1..], d))[|fs[0]|] == d;
  }

  /** A two-field line `a + [d] + b` splits back into `[a, b]`. */
  lemma SplitPair(a: string, d: char, b: string)
    requires d !in a && d !in b && b != ""
    ensures Split(a + [d] + b, d) == [a, b]
  {
    SplitOfJoin([a, b], d);
    assert Join([a, b], d) == a + [d] + b;
  }

  /** A first field holding no `d` comes off whole. */
  lemma SplitLimitCons(head: string, d: char, rest: string, limit: nat, l1: nat)
    requires d !in head && limit >= 2 && l1 == limit - 1
    ensures SplitLimit(head + [d] + rest, d, limit) == [head] + SplitLimit(rest, d, l1)
  {
    var s := head + [d] + rest;
    IndexOfAfter(head, d, rest);
    assert s[..|head|] == head;
    assert s[|head| + 1..] == rest;
  }

  /** `split(d, limit)` undoes `Join` when only the last field may hold `d`
      (and then only if the limit is reached). */
  lemma SplitLimitOfJoin(fs: seq<string>, d: char, limit: nat)
    requires 1 <= |fs| <= limit
    requires forall i :: 0 <= i < |fs| - 1 ==> d !in fs[i]
    requires |fs| < limit ==> d !in fs[|fs| - 1]
    ensures SplitLimit(Join(fs, d), d, limit) == fs
  {
    assert CleanFields(fs, d, limit);
    SplitLimitOfJoined(Join(fs, d), fs, d, limit);
  }

  /** The fields `SplitLimitOfJoin` asks for: as many as the limit allows,
      none but the last holding `d`, and the last one too when the limit is
      not reached. */
  predicate CleanFields(fs: seq<string>, d: char, limit: nat) {
    1 <= |fs| <= limit
    && (forall i :: 0 <= i < |fs| - 1 ==> d !in fs[i])
    && (|fs| < limit ==> d !in fs[|fs| - 1])
  }

  predicate SplitsInto(s: string, d: char, limit: nat, fs: seq<string>)
    requires limit >= 1
  {
    SplitLimit(s, d, limit) == fs
  }

  lemma {:induction false} SplitLimitOfJoined(s: string, fs: seq<string>, d: char, limit: nat)
    requires CleanFields(fs, d, limit) && s == Join(fs, d)
    ensures SplitsInto(s, d, limit, fs)
    decreases |fs|
  {
    if |fs| > 1 {
      var rest := Join(fs[1..], d);
      JoinCons(fs, d);
      CleanTail(fs, d, limit);
      SplitLimitOfJoined(rest, fs[1..], d, limit - 1);
      ConsSplits(s, rest, fs, d, limit);
    } else {
      SplitLimitOfSingle(fs, d, limit);
    }
  }

  lemma JoinCons(fs: seq<string>, d: char)
    requires |fs| > 1
    ensures Join(fs, d) == fs[0] + [d] + Join(fs[1..], d)
  {
  }

  /** Joining `n` fields puts at least `n - 1` separators in the text. */
  lemma {:induction false} JoinSeparators(fs: seq<string>, d: char)
    ensures multiset(Join(fs, d))[d] >= |fs| - 1
    decreases |fs|
  {
    if |fs| > 1 {
      var rest := Join(fs[1..], d);
      JoinCons(fs, d);
      JoinSeparators(fs[1..], d);
      assert multiset(fs[0] + [d] + rest) == multiset(fs[0]) + multiset([d]) + multiset(rest);
    }
  }

  lemma CleanTail(fs: seq<string>, d: char, limit: nat)
    requires CleanFields(fs, d, limit) && |fs| > 1
    ensures CleanFields(fs[1..], d, limit - 1) && d !in fs[0] && limit >= 2
  {
    assert d !in fs[0];
  }

  /** Splitting off a first field that holds no `d` leaves the split of the rest. */
  lemma ConsSplits(s: string, rest: string, fs: seq<string>, d: char, limit: nat)
    requires limit >= 2 && |fs| >= 1 && d !in fs[0] && s == fs[0] + [d] + rest
    requires SplitsInto(rest, d, limit - 1, fs[1..])
    ensures SplitsInto(s, d, limit, fs)
  {
    SplitLimitCons(fs[0], d, rest, limit, limit - 1);
    assert fs == [fs[0]] + fs[1..];
  }

  lemma SplitLimitOfSingle(fs: seq<string>, d: char, limit: nat)
    requires |fs| == 1 && 1 <= limit && (limit > 1 ==> d !in fs[0])
    ensures SplitLimit(Join(fs, d), d, limit) == fs
  {
    assert Join(fs, d) == fs[0];
    assert [fs[0]] == fs;
  }

  // ---------------------------------------------------------------------------
  // String.trim

  predicate IsBlank(c: char) { c <= ' ' }

  function TrimStart(s: string): (r: string)
    ensures |r| <= |s| && r == s[|s| - |r|..]
    ensures forall i :: 0 <= i < |s| - |r| ==> IsBlank(s[i])
    ensures r != [] ==> !IsBlank(r[0])
  {
    if |s| > 0 && IsBlank(s[0]) then TrimStart(s[1..]) else s
  }

  function TrimEnd(s: string): (r: string)
    ensures |r| <= |s| && r == s[..|r|]
    ensures forall i :: |r| <= i < |s| ==> IsBlank(s[i])
    ensures r != [] ==> !IsBlank(r[|r| - 1])
  {
    if |s| > 0 && IsBlank(s[|s| - 1]) then TrimEnd(s[..|s| - 1]) else s
  }

  /** `s.trim()`: the middle of `s` once every leading and trailing character at
      or below U+0020 is removed. */
  function Trim(s: string): (r: string)
    ensures r != [] ==> !IsBlank(r[0]) && !IsBlank(r[|r| - 1])
    ensures (forall i :: 0 <= i < |s| ==> IsBlank(s[i])) ==> r == []
    ensures (exists i :: 0 <= i < |s| && !IsBlank(s[i])) ==> r != []
  {
    TrimEnd(TrimStart(s))
  }

  /** Blanks added at either end do not change what `trim` returns. */
  lemma TrimPadded(before: string, line: string, after: string)
    requires forall i :: 0 <= i < |before| ==> IsBlank(before[i])
    requires forall i :: 0 <= i < |after| ==> IsBlank(after[i])
    ensures Trim(before + line + after) == Trim(line)
  {
    assert before + line + after == before + (line + after);
    TrimStartPadded(line + after, before);
    TrimStartSuffix(line, after);
  }

  lemma {:induction false} TrimStartPadded(s: string, pad: string)
    requires forall i :: 0 <= i < |pad| ==> IsBlank(pad[i])
    ensures TrimStart(pad + s) == TrimStart(s)
    decreases |pad|
  {
    if |pad| > 0 {
      assert (pad + s)[0] == pad[0];
      assert (pad + s)[1..] == pad[1..] + s;
      TrimStartPadded(s, pad[1..]);
    } else {
      assert pad + s == s;
    }
  }

  lemma {:induction false} TrimEndPadded(s: string, pad: string)
    requires forall i :: 0 <= i < |pad| ==> IsBlank(pad[i])
    ensures TrimEnd(s + pad) == TrimEnd(s)
    decreases |pad|
  {
    if |pad| > 0 {
      var last := |pad| - 1;
      assert (s + pad)[|s + pad| - 1] == pad[last];
      assert (s + pad)[..|s + pad| - 1] == s + pad[..last];
      TrimEndPadded(s, pad[..last]);
    } else {
      assert s + pad == s;
    }
  }

  /** Trimming the front of `line + pad` leaves the same pad behind, unless
      the whole text was blank. */
  lemma {:induction false} TrimStartSuffix(line: string, pad: string)
    requires forall i :: 0 <= i < |pad| ==> IsBlank(pad[i])
    ensures TrimEnd(TrimStart(line + pad)) == TrimEnd(TrimStart(line))
    decreases |line|
  {
    if |line| > 0 && IsBlank(line[0]) {
      assert (line + pad)[0] == line[0];
      assert (line + pad)[1..] == line[1..] + pad;
      TrimStartSuffix(line[1..], pad);
    } else if |line| > 0 {
      assert (line + pad)[0] == line[0];
      assert TrimStart(line + pad) == line + pad;
      TrimEndPadded(line, pad);
    } else {
      assert line + pad == pad;
      TrimStartPadded([], pad);
      assert pad + [] == pad;
    }
  }

  /** `r` is `s` with every leading and trailing blank removed: it sits in
      `s` with only blanks around it, and neither starts nor ends with a
      blank. */
  predicate TrimOf(s: string, r: string) {
    && (exists i :: 0 <= i <= |s| - |r| && Trimmed(s, i, r))
    && (r != [] ==> !IsBlank(r[0]) && !IsBlank(r[|r| - 1]))
  }

  /** `r` sits in `s` at `i`, with only blanks before and after it. */
  predicate Trimmed(s: string, i: nat, r: string)
    requires i + |r| <= |s|
  {
    && s[i..i + |r|] == r
    && (forall k :: 0 <= k < i ==> IsBlank(s[k]))
    && (forall k :: i + |r| <= k < |s| ==> IsBlank(s[k]))
  }

  /** `trim` removes exactly the blanks at both ends. */
  lemma TrimIsTrimOf(s: string)
    ensures TrimOf(s, Trim(s))
  {
    var front := TrimStart(s);
    TrimmedBetween(s, front, TrimEnd(front));
  }

  /** Blanks cut off the front and then the back leave a text sitting in
      `s` with only blanks around it. */
  lemma TrimmedBetween(s: string, front: string, r: string)
    requires |front| <= |s| && front == s[|s| - |front|..]
    requires forall k :: 0 <= k < |s| - |front| ==> IsBlank(s[k])
    requires |r| <= |front| && r == front[..|r|]
    requires forall k :: |r| <= k < |front| ==> IsBlank(front[k])
    requires front != [] ==> !IsBlank(front[0])
    requires r != [] ==> !IsBlank(r[|r| - 1])
    ensures TrimOf(s, r)
  {
    var i := |s| - |front|;
    assert s[i..i + |r|] == front[..|r|];
    forall k | i + |r| <= k < |s|
      ensures IsBlank(s[k])
    {
      assert s[k] == front[k - i];
    }
    assert Trimmed(s, i, r);
  }

  // ---------------------------------------------------------------------------
  // Long.toString and Long.parseLong (radix 10)

  const LongMin: int := -0x8000_0000_0000_0000
  const LongMax: int := 0x7FFF_FFFF_FFFF_FFFF

  /** Fits a Java `long`. */
  predicate IsLong(n: int) { LongMin <= n <= LongMax }

  predicate IsDigit(c: char) { '0' <= c <= '9' }

  predicate AllDigits(s: string) { forall i :: 0 <= i < |s| ==> IsDigit(s[i]) }

  function DigitValue(c: char): nat
    requires IsDigit(c)
  {
    c as int - '0' as int
  }

  function DigitChar(d: nat): (c: char)
    requires d < 10
    ensures IsDigit(c) && DigitValue(c) == d
  {
    ('0' as int + d) as char
  }

  /** Decimal digits of `n`, most significant first, without leading zeros. */
  function NatToDecimal(n: nat): (s: string)
    ensures |s| >= 1 && AllDigits(s)
    decreases n
  {
    if n < 10 then [DigitChar(n)] else NatToDecimal(n / 10) + [DigitChar(n % 10)]
  }

  /** The number a non-empty run of decimal digits denotes. */
  function DecimalValue(s: string): nat
    requires AllDigits(s)
  {
    if |s| == 0 then 0 else 10 * DecimalValue(s[..|s| - 1]) + DigitValue(s[|s| - 1])
  }

  lemma {:induction false} DecimalValueOfNatToDecimal(n: nat)
    ensures DecimalValue(NatToDecimal(n)) == n
    decreases n
  {
    if n >= 10 {
      var s := NatToDecimal(n);
      assert s[..|s| - 1] == NatToDecimal(n / 10);
      DecimalValueOfNatToDecimal(n / 10);
    }
  }

  /** `Long.toString(n)`: a minus sign for negative values, then the digits. */
  function LongToString(n: int): (s: string)
    ensures |s| >= 1
    ensures forall i :: 0 <= i < |s| ==> IsDigit(s[i]) || s[i] == '-'
  {
    if n < 0 then "-" + NatToDecimal(-n) else NatToDecimal(n)
  }

  /** One optional `+` or `-` followed by at least one decimal digit, and
      nothing else. */
  predicate LongSyntax(s: string) {
    || (s != [] && AllDigits(s))
    || (|s| >= 2 && (s[0] == '+' || s[0] == '-') && AllDigits(s[1..]))
  }

  /** `Long.parseLong(s)`: an optional `+` or `-`, at least one digit, nothing
      else, and a value inside the `long` range; anything else is a
      `NumberFormatException`. */
  function ParseLong(s: string): (r: Result<int>)
    ensures r.Ok? ==> IsLong(r.value)
    ensures s == [] || s == "-" || s == "+" ==> r.Err?
    ensures AllDigits(s) && s != [] && DecimalValue(s) <= LongMax ==> r == Ok(DecimalValue(s))
  {
    if |s| == 0 then Err("NumberFormatException")
    else
      var body := if s[0] == '-' || s[0] == '+' then s[1..] else s;
      if |body| == 0 || !AllDigits(body) then Err("NumberFormatException")
      else
        var v: int := if s[0] == '-' then -(DecimalValue(body) as int) else DecimalValue(body);
        if IsLong(v) then Ok(v) else Err("NumberFormatException")
  }

  /** When `parseLong` fails and what it returns otherwise: text that is not
      an optional sign followed by digits fails; digits, with or without a
      `+`, give their value and a `-` its negation, each only inside the
      `long` range. */
  lemma ParseLongMeaning(s: string)
    ensures !LongSyntax(s) ==> ParseLong(s).Err?
    ensures AllDigits(s) && s != [] ==>
              (ParseLong(s).Ok? <==> DecimalValue(s) <= LongMax)
              && (ParseLong(s).Ok? ==> ParseLong(s).value == DecimalValue(s))
    ensures |s| >= 2 && s[0] == '+' && AllDigits(s[1..]) ==>
              (ParseLong(s).Ok? <==> DecimalValue(s[1..]) <= LongMax)
              && (ParseLong(s).Ok? ==> ParseLong(s).value == DecimalValue(s[1..]))
    ensures |s| >= 2 && s[0] == '-' && AllDigits(s[1..]) ==>
              (ParseLong(s).Ok? <==> DecimalValue(s[1..]) <= -LongMin)
              && (ParseLong(s).Ok? ==> ParseLong(s).value == -(DecimalValue(s[1..]) as int))
  {
  }

  /** `Long.parseLong(Long.toString(n)) == n` for every `long`. */
  lemma ParseLongOfLongToString(n: int)
    requires IsLong(n)
    ensures ParseLong(LongToString(n)) == Ok(n)
  {
    if n < 0 {
      ParseLongOfNegative(n);
    } else {
      ParseLongOfNonNegative(n);
    }
  }

  lemma ParseLongOfNegative(n: int)
    requires IsLong(n) && n < 0
    ensures ParseLong(LongToString(n)) == Ok(n)
  {
    var digits := NatToDecimal(-n);
    var s := "-" + digits;
    assert s[0] == '-' && s[1..] == digits;
    DecimalValueOfNatToDecimal(-n);
    ParseSigned(s, digits);
  }

  lemma ParseLongOfNonNegative(n: int)
    requires IsLong(n) && n >= 0
    ensures ParseLong(LongToString(n)) == Ok(n)
  {
    var digits := NatToDecimal(n);
    DecimalValueOfNatToDecimal(n);
    assert ParseLong(digits) == Ok(DecimalValue(digits));
  }

  /** A minus sign followed by digits parses to the negated digits' value,
      when that is a `long`. */
  lemma ParseSigned(s: string, digits: string)
    requires |s| >= 2 && s[0] == '-' && s[1..] == digits && AllDigits(digits)
    requires IsLong(-(DecimalValue(digits) as int))
    ensures ParseLong(s) == Ok(-(DecimalValue(digits) as int))
  {
  }

  lemma LongTextHasNo(n: int, c: char)
    requires c != '-' && !IsDigit(c)
    ensures c !in LongToString(n)
  {
  }
}

=== FILE: negotiation.dfy ===
/** The resume handshake shared by upload and download: the side that holds
    the partial copy offers `RESUME:<n>` or `START`, and the other side reads
    its start offset out of that token. */
module Negotiation {
  import opened JavaText

  const StartToken: string := "START"
  const ResumePrefix: string := "RESUME:"

  function ResumeToken(n: int): string {
    ResumePrefix + LongToString(n)
  }

  /** The token offered for a transfer whose ledger offset is `recorded`;
      `present` says whether the partial copy is there (the server also checks
      that the destination file exists, the client does not). */
  function Offer(recorded: int, present: bool): (token: string)
    ensures StartsWith(token, ResumePrefix) <==> recorded > 0 && present
    ensures !StartsWith(token, ResumePrefix) ==> token == StartToken
  {
    assert !StartsWith(StartToken, ResumePrefix);
    if recorded > 0 && present then ResumeToken(recorded) else StartToken
  }

  /** The offset the offering side itself starts from. */
  function OfferedStart(recorded: int, present: bool): (n: nat)
    ensures n > 0 ==> n == recorded && present
    ensures n == 0 ==> recorded <= 0 || !present
  {
    if recorded > 0 && present then recorded else 0
  }

  /** How the other side reads the token: a token that starts with
      `RESUME:` is split on `:` and its second field parsed as a `long`
      (no second field is an index error, a bad number a
      `NumberFormatException`); any other token means offset 0. */
  function StartOffset(token: string): (r: Result<int>)
    ensures !StartsWith(token, ResumePrefix) ==> r == Ok(0)
    ensures r.Ok? ==> IsLong(r.value)
  {
    if StartsWith(token, ResumePrefix) then
      var parts := Split(token, ':');
      if |parts| < 2 then Err("ArrayIndexOutOfBoundsException") else ParseLong(parts[1])
    else Ok(0)
  }

  /** `RESUME:<n>` is read back as `n`, for every `long` `n`. */
  lemma StartOffsetOfResumeToken(n: int)
    requires IsLong(n)
    ensures StartOffset(ResumeToken(n)) == Ok(n)
  {
    var text := LongToString(n);
    LongTextHasNo(n, ':');
    assert ResumeToken(n) == "RESUME" + [':'] + text;
    assert StartsWith(ResumeToken(n), ResumePrefix);
    SplitPair("RESUME", ':', text);
    ParseLongOfLongToString(n);
  }

  /** Both sides agree on the start offset: what the reader parses from the
      offered token is the offset the offering side starts from. */
  lemma OfferAgreed(recorded: int, present: bool)
    requires IsLong(recorded)
    ensures StartOffset(Offer(recorded, present)) == Ok(OfferedStart(recorded, present))
  {
    if recorded > 0 && present {
      StartOffsetOfResumeToken(recorded);
    } else {
      assert !StartsWith(StartToken, ResumePrefix);
    }
  }

  /** A bare `RESUME:` has no second field once trailing empty fields are
      dropped, so reading it fails. */
  lemma BareResumeFails()
    ensures StartOffset(ResumePrefix).Err?
  {
    var fs := ["RESUME", ""];
    FieldsOfJoin(fs, ':');
    assert Join(fs, ':') == ResumePrefix;
    assert DropTrailingEmpty(fs) == ["RESUME"];
  }
}

=== FILE: resume_ledger.dfy ===
/** The resume ledger: transfer key (a bare file name) to the last confirmed
    byte offset, persisted as one `key offset` line per entry and read back at
    start-up. Both the file server and the file client keep one. */
module ResumeLedger {
  import opened JavaText

  type Ledger = map<string, int>

  /** `getResumeState`: the recorded offset, 0 when there is none. */
  function Get(l: Ledger, key: string): (n: int)
    ensures key !in l ==> n == 0
    ensures key in l ==> n == l[key]
  {
    if key in l then l[key] else 0
  }

  /** `updateResumeState`: overwrite the offset for `key`; there is no check
      that the new offset is larger than the old one. */
  function Update(l: Ledger, key: string, offset: int): (r: Ledger)
    ensures Get(r, key) == offset
    ensures forall k :: k != key ==> Get(r, k) == Get(l, k)
    ensures r.Keys == l.Keys + {key}
  {
    l[key := offset]
  }

  /** `clearResumeState`: drop the entry for `key`. */
  function Clear(l: Ledger, key: string): (r: Ledger)
    ensures key !in r && Get(r, key) == 0
    ensures forall k :: k != key ==> Get(r, k) == Get(l, k)
    ensures r.Keys == l.Keys - {key}
  {
    l - {key}
  }

  /** Clearing twice is clearing once. */
  lemma ClearIdempotent(l: Ledger, key: string)
    ensures Clear(Clear(l, key), key) == Clear(l, key)
  {
  }

  // ---------------------------------------------------------------------------
  // The ledger file

  /** A key that survives the `key offset` line format: no space in it. */
  predicate SavableKey(key: string) { ' ' !in key }

  predicate Savable(l: Ledger) {
    forall k :: k in l ==> SavableKey(k) && IsLong(l[k])
  }

  function EntryLine(key: string, offset: int): string {
    key + " " + LongToString(offset)
  }

  /** `order` lists every key of `l` exactly once: the iteration order of the
      hash map, which nothing in the program fixes. */
  predicate IsKeyOrder(l: Ledger, order: seq<string>) {
    && (forall i :: 0 <= i < |order| ==> order[i] in l)
    && (forall k :: k in l ==> k in order)
    && (forall i, j :: 0 <= i < j < |order| ==> order[i] != order[j])
  }

  lemma {:induction false} DistinctCardinality(order: seq<string>)
    requires forall i, j :: 0 <= i < j < |order| ==> order[i] != order[j]
    ensures |set k | k in order| == |order|
    decreases |order|
  {
    if |order| > 0 {
      var init := order[..|order| - 1];
      DistinctCardinality(init);
      var last := order[|order| - 1];
      assert (set k | k in order) == (set k | k in init) + {last};
      assert last !in (set k | k in init);
    }
  }

  /** The entry lines for the keys in `order`, in that order. */
  function EntryLines(l: Ledger, order: seq<string>): (lines: seq<string>)
    requires forall i :: 0 <= i < |order| ==> order[i] in l
    ensures ListsEntries(l, order, lines)
    decreases |order|
  {
    if |order| == 0 then []
    else
      var init := order[..|order| - 1];
      var last := order[|order| - 1];
      var before := EntryLines(l, init);
      EntriesSnoc(l, order, before);
      before + [EntryLine(last, l[last])]
  }

  /** `lines` holds the entry line of each key of `order`, in that order. */
  predicate ListsEntries(l: Ledger, order: seq<string>, lines: seq<string>)
    requires forall i :: 0 <= i < |order| ==> order[i] in l
  {
    |lines| == |order| && forall i :: 0 <= i < |order| ==> lines[i] == EntryLine(order[i], l[order[i]])
  }

  lemma EntriesSnoc(l: Ledger, order: seq<string>, before: seq<string>)
    requires |order| > 0 && forall i :: 0 <= i < |order| ==> order[i] in l
    requires ListsEntries(l, order[..|order| - 1], before)
    ensures ListsEntries(l, order, before + [EntryLine(order[|order| - 1], l[order[|order| - 1]])])
  {
    var init := order[..|order| - 1];
    assert forall i :: 0 <= i < |init| ==> init[i] == order[i];
  }

  /** `saveResumeStates`: one `key offset` line per entry, in hash-map order. */
  function Save(l: Ledger, order: seq<string>): (lines: seq<string>)
    requires IsKeyOrder(l, order)
    ensures |lines| == |order| == |l|
    ensures forall i :: 0 <= i < |lines| ==> lines[i] == EntryLine(order[i], l[order[i]])
  {
    DistinctCardinality(order);
    assert (set k | k in order) == l.Keys;
    EntryLines(l, order)
  }

  /** The `(key, offset text)` pair of a line that splits on `" "` into exactly
      two fields; `None` for every other line. */
  function LineEntry(line: string): Option<(string, string)> {
    var parts := Split(line, ' ');
    if |parts| == 2 then Some((parts[0], parts[1])) else None
  }

  /** One line read at start-up: lines that are not two fields are skipped, a
      two-field line sets its key (replacing an earlier value), and an offset
      that is not a `long` aborts the load. */
  function LoadLine(m: Ledger, line: string): Result<Ledger>
  {
    match LineEntry(line)
    case None => Ok(m)
    case Some(entry) =>
      match ParseLong(entry.1)
      case Err(e) => Err(e)
      case Ok(v) => Ok(m[entry.0 := v])
  }

  /** `loadResumeStates` over the lines of an existing file, read in order.
      (Defined by peeling the last line; it is the same left-to-right fold.) */
  function LoadLines(lines: seq<string>): (r: Result<Ledger>)
    ensures r.Ok? ==> forall k :: k in r.value ==> NamedBy(lines, k)
    decreases |lines|
  {
    if |lines| == 0 then Ok(map[])
    else
      var init := lines[..|lines| - 1];
      match LoadLines(init)
      case Err(e) => Err(e)
      case Ok(m) =>
        LoadLineNamed(lines, m);
        LoadLine(m, lines[|lines| - 1])
  }

  /** A key loaded from one more line is named by that line or was already
      named before it. */
  lemma LoadLineNamed(lines: seq<string>, m: Ledger)
    requires |lines| > 0 && forall k :: k in m ==> NamedBy(lines[..|lines| - 1], k)
    ensures var r := LoadLine(m, lines[|lines| - 1]);
            r.Ok? ==> forall k :: k in r.value ==> NamedBy(lines, k)
  {
    var last := lines[|lines| - 1];
    var r := LoadLine(m, last);
    if r.Ok? {
      forall k | k in r.value
        ensures NamedBy(lines, k)
      {
        if k in m {
          NamedExtends(lines, k);
        } else {
          LoadLineKeys(m, last, k);
          assert LineEntry(lines[|lines| - 1]).Some? && LineEntry(lines[|lines| - 1]).value.0 == k;
        }
      }
    }
  }

  /** A key loaded from a line was there before or is the line's own. */
  lemma LoadLineKeys(m: Ledger, line: string, k: string)
    requires LoadLine(m, line).Ok? && k in LoadLine(m, line).value && k !in m
    ensures LineEntry(line).Some? && LineEntry(line).value.0 == k
  {
  }

  lemma NamedExtends(lines: seq<string>, k: string)
    requires |lines| > 0 && NamedBy(lines[..|lines| - 1], k)
    ensures NamedBy(lines, k)
  {
    var init := lines[..|lines| - 1];
    var i :| 0 <= i < |init| && LineEntry(init[i]).Some? && LineEntry(init[i]).value.0 == k;
    assert lines[i] == init[i];
  }

  /** Some two-field line of `lines` names `key`. */
  predicate NamedBy(lines: seq<string>, key: string) {
    exists i :: 0 <= i < |lines| && LineEntry(lines[i]).Some? && LineEntry(lines[i]).value.0 == key
  }

  /** Loading at start-up: `None` is a missing ledger file. */
  function Load(file: Option<seq<string>>): (r: Result<Ledger>)
    ensures file.None? ==> r == Ok(map[])
    ensures file.Some? ==> r == LoadLines(file.value)
  {
    match file
    case None => Ok(map[])
    case Some(lines) => LoadLines(lines)
  }

  /** The offset text of the last two-field line for `key`, if any. */
  function LastText(lines: seq<string>, key: string): Option<string>
    decreases |lines|
  {
    if |lines| == 0 then None
    else
      var e := LineEntry(lines[|lines| - 1]);
      if e.Some? && e.value.0 == key then Some(e.value.1) else LastText(lines[..|lines| - 1], key)
  }

  /** The line is skipped, or its offset parses. */
  predicate LineLoads(line: string) {
    LineEntry(line).None? || ParseLong(LineEntry(line).value.1).Ok?
  }

  predicate OffsetsParse(lines: seq<string>) {
    forall i :: 0 <= i < |lines| ==> LineLoads(lines[i])
  }

  /** Loading a file fails exactly when some two-field line's offset is not a
      `long`. */
  lemma {:induction false} LoadFailsIffBadOffset(lines: seq<string>)
    ensures LoadLines(lines).Ok? <==> OffsetsParse(lines)
    decreases |lines|
  {
    if |lines| > 0 {
      var init := lines[..|lines| - 1];
      var last := lines[|lines| - 1];
      LoadFailsIffBadOffset(init);
      LoadLineOk(LoadLines(init), last);
      OffsetsParseLast(lines);
    }
  }

  lemma LoadLineOk(before: Result<Ledger>, line: string)
    ensures before.Ok? ==> (LoadLine(before.value, line).Ok? <==> LineLoads(line))
  {
  }

  lemma OffsetsParseLast(lines: seq<string>)
    requires |lines| > 0
    ensures OffsetsParse(lines)
            <==> OffsetsParse(lines[..|lines| - 1]) && LineLoads(lines[|lines| - 1])
  {
    var init := lines[..|lines| - 1];
    assert forall i :: 0 <= i < |init| ==> lines[i] == init[i];
  }

  /** What a successful load holds: a key is present exactly when some
      two-field line names it, and its offset is the one on the last such line. */
  lemma {:induction false} LoadedOffsets(lines: seq<string>)
    requires LoadLines(lines).Ok?
    ensures forall k ::
      (k in LoadLines(lines).value <==> LastText(lines, k).Some?) &&
      (k in LoadLines(lines).value ==> ParseLong(LastText(lines, k).value) == Ok(LoadLines(lines).value[k]))
    decreases |lines|
  {
    if |lines| > 0 {
      var init := lines[..|lines| - 1];
      var last := lines[|lines| - 1];
      assert LoadLines(init).Ok?;
      LoadedOffsets(init);
      var m0 := LoadLines(init).value;
      var m := LoadLines(lines).value;
      var e := LineEntry(last);
      forall k
        ensures (k in m <==> LastText(lines, k).Some?)
        ensures (k in m ==> ParseLong(LastText(lines, k).value) == Ok(m[k]))
      {
        if e.Some? && e.value.0 == k {
          assert LastText(lines, k) == Some(e.value.1);
        } else {
          assert LastText(lines, k) == LastText(init, k);
          assert k in m <==> k in m0;
        }
      }
    }
  }

  /** A line that does not split into exactly two fields changes nothing. */
  lemma {:induction false} LoadSkipsMalformed(before: seq<string>, bad: string, after: seq<string>)
    requires |Split(bad, ' ')| != 2
    ensures LoadLines(before + [bad] + after) == LoadLines(before + after)
    decreases |after|
  {
    if |after| == 0 {
      LoadMalformedLast(before, bad, after);
    } else {
      LoadSkipsMalformed(before, bad, after[..|after| - 1]);
      LoadSkipStep(before, bad, after);
    }
  }

  lemma LoadMalformedLast(before: seq<string>, bad: string, after: seq<string>)
    requires |Split(bad, ' ')| != 2 && after == []
    ensures LoadLines(before + [bad] + after) == LoadLines(before + after)
  {
    assert before + [bad] + after == before + [bad];
    assert before + after == before;
    LoadLinesSnoc(before, bad);
  }

  lemma LoadSkipStep(before: seq<string>, bad: string, after: seq<string>)
    requires |after| > 0
    requires LoadLines(before + [bad] + after[..|after| - 1]) == LoadLines(before + after[..|after| - 1])
    ensures LoadLines(before + [bad] + after) == LoadLines(before + after)
  {
    var init := after[..|after| - 1];
    SnocAround(before, bad, after);
    LoadSameThenLine(before + [bad] + after, before + after, before + [bad] + init, before + init, after[|after| - 1]);
  }

  /** Two line lists that load alike still load alike once the same line
      is added to both. */
  lemma LoadSameThenLine(xs: seq<string>, ys: seq<string>, xs0: seq<string>, ys0: seq<string>, line: string)
    requires xs == xs0 + [line] && ys == ys0 + [line]
    requires LoadLines(xs0) == LoadLines(ys0)
    ensures LoadLines(xs) == LoadLines(ys)
  {
    LoadLinesSnoc(xs0, line);
    LoadLinesSnoc(ys0, line);
  }

  lemma SnocAround(before: seq<string>, bad: string, after: seq<string>)
    requires |after| > 0
    ensures before + [bad] + after == (before + [bad] + after[..|after| - 1]) + [after[|after| - 1]]
    ensures before + after == (before + after[..|after| - 1]) + [after[|after| - 1]]
  {
    assert after == after[..|after| - 1] + [after[|after| - 1]];
  }

  /** Loading one more line: a failure so far stays, otherwise the line is
      loaded into the ledger read so far. */
  lemma LoadLinesSnoc(lines: seq<string>, line: string)
    ensures LoadLines(lines + [line])
            == if LoadLines(lines).Err? then LoadLines(lines) else LoadLine(LoadLines(lines).value, line)
  {
    assert (lines + [line])[..|lines|] == lines;
  }

  /** The later of two lines for the same key wins. */
  lemma LaterLineWins(lines: seq<string>, key: string, v: int)
    requires LoadLines(lines).Ok?
    requires SavableKey(key) && IsLong(v)
    ensures LoadLines(lines + [EntryLine(key, v)]) == Ok(LoadLines(lines).value[key := v])
  {
    SplitPair(key, ' ', LongToString(v));
    ParseLongOfLongToString(v);
    assert (lines + [EntryLine(key, v)])[..|lines|] == lines;
  }

  /** A two-field line whose offset does not parse makes the whole load fail. */
  lemma LoadFailsOnBadOffset(lines: seq<string>, i: nat)
    requires i < |lines| && !LineLoads(lines[i])
    ensures LoadLines(lines).Err?
  {
    LoadFailsIffBadOffset(lines);
  }

  lemma EntryLineParses(key: string, v: int)
    requires SavableKey(key) && IsLong(v)
    ensures LineEntry(EntryLine(key, v)) == Some((key, LongToString(v)))
    ensures ParseLong(LongToString(v)) == Ok(v)
  {
    LongTextHasNo(v, ' ');
    assert LongToString(v) != "";
    SplitPair(key, ' ', LongToString(v));
    ParseLongOfLongToString(v);
  }

  lemma LoadSnoc(lines: seq<string>, line: string)
    ensures LoadLines(lines + [line]) ==
      match LoadLines(lines)
      case Err(e) => Err(e)
      case Ok(m) => LoadLine(m, line)
  {
    assert (lines + [line])[..|lines|] == lines;
  }

  lemma {:induction false} LoadEntryLines(l: Ledger, order: seq<string>)
    requires forall i :: 0 <= i < |order| ==> order[i] in l
    requires Savable(l)
    ensures LoadLines(EntryLines(l, order)) == Ok(map k | k in order :: l[k])
    decreases |order|
  {
    if |order| > 0 {
      var init := order[..|order| - 1];
      var key := order[|order| - 1];
      var before := EntryLines(l, init);
      var line := EntryLine(key, l[key]);
      assert EntryLines(l, order) == before + [line];
      LoadEntryLines(l, init);
      var m0 := map k | k in init :: l[k];
      LoadSnoc(before, line);
      EntryLineParses(key, l[key]);
      assert LoadLine(m0, line) == Ok(m0[key := l[key]]);
      MapOfSnoc(l, order);
    }
  }

  lemma MapOfSnoc(l: Ledger, order: seq<string>)
    requires |order| > 0 && forall i :: 0 <= i < |order| ==> order[i] in l
    ensures (map k | k in order :: l[k])
            == (map k | k in order[..|order| - 1] :: l[k])[order[|order| - 1] := l[order[|order| - 1]]]
  {
    var init := order[..|order| - 1];
    var key := order[|order| - 1];
    var m1 := map k | k in order :: l[k];
    var m2 := (map k | k in init :: l[k])[key := l[key]];
    assert order == init + [key];
    assert forall k :: k in order <==> k in init || k == key;
    assert m1.Keys == m2.Keys;
  }

  /** Saving then loading gives the ledger back, whatever the hash-map order,
      when no key holds a space. */
  lemma SaveLoadRoundTrip(l: Ledger, order: seq<string>)
    requires IsKeyOrder(l, order) && Savable(l)
    ensures Load(Some(Save(l, order))) == Ok(l)
  {
    assert Save(l, order) == EntryLines(l, order);
    LoadEntryLines(l, order);
    MapOfKeyOrder(l, order);
  }

  lemma MapOfKeyOrder(l: Ledger, order: seq<string>)
    requires IsKeyOrder(l, order)
    ensures (map k | k in order :: l[k]) == l
  {
    var m := map k | k in order :: l[k];
    assert m.Keys == l.Keys;
  }
}

=== FILE: transfer.dfy ===
/** Byte transfer with resumable offsets: the positioned write of a
    `RandomAccessFile` opened "rw", the inbound byte stream of a socket, and
    the two chunk loops that both the file server and the file client run
    (one receives into a file at an offset, one sends a file from an offset),
    each recording the cumulative offset in a resume ledger after every
    chunk. */
module Transfer {
  import opened JavaText
  import opened ResumeLedger

  type byte = bv8

  /** The server's buffer length (`new byte[4096]`); the client uses its
      configured `BLOCK_SIZE` instead, so the loops take the limit as a
      parameter. */
  const ServerBuffer: nat := 4096

  function Zeros(n: nat): (r: seq<byte>)
    ensures |r| == n
    ensures forall i :: 0 <= i < n ==> r[i] == 0
  {
    if n == 0 then [] else Zeros(n - 1) + [0]
  }

  // ---------------------------------------------------------------------------
  // Positioned writes

  /** One byte written at `pos`; a position past the end first extends the
      file, and the gap reads as zero here. */
  function Poke(file: seq<byte>, pos: nat, b: byte): (r: seq<byte>)
    ensures |r| == Max(|file|, pos + 1)
    ensures r[pos] == b
    ensures forall i :: 0 <= i < |file| && i != pos ==> r[i] == file[i]
    ensures forall i :: |file| <= i < pos ==> r[i] == 0
  {
    if pos < |file| then file[pos := b] else file + Zeros(pos - |file|) + [b]
  }

  /** `seek(pos)` then `write(data)` on a file opened "rw", one byte after
      the other: the file is not truncated, bytes past the written range
      survive, and a write that starts past the end extends the file. A
      write of no bytes leaves the file as it is, even past its end. */
  function WriteAt(file: seq<byte>, pos: nat, data: seq<byte>): (r: seq<byte>)
    ensures |data| == 0 ==> r == file
    ensures |data| > 0 ==> |r| == Max(|file|, pos + |data|)
    decreases |data|
  {
    if |data| == 0 then file else WriteAt(Poke(file, pos, data[0]), pos + 1, data[1..])
  }

  /** What a positioned write leaves in the file, byte by byte: the data at
      `pos`, the old bytes elsewhere, zeros in a gap past the old end, and
      the length grown to cover the write. */
  lemma {:induction false} WriteAtBytes(file: seq<byte>, pos: nat, data: seq<byte>)
    ensures |data| == 0 ==> WriteAt(file, pos, data) == file
    ensures |data| > 0 ==> |WriteAt(file, pos, data)| == Max(|file|, pos + |data|)
    ensures forall i :: 0 <= i < |data| ==>
              pos + i < |WriteAt(file, pos, data)| && WriteAt(file, pos, data)[pos + i] == data[i]
    ensures forall i :: 0 <= i < |file| && (i < pos || pos + |data| <= i) ==>
              WriteAt(file, pos, data)[i] == file[i]
    ensures |data| > 0 ==> forall i :: |file| <= i < pos ==> WriteAt(file, pos, data)[i] == 0
    decreases |data|
  {
    if |data| > 0 {
      var f1 := Poke(file, pos, data[0]);
      var rest := data[1..];
      var r := WriteAt(file, pos, data);
      assert r == WriteAt(f1, pos + 1, rest);
      WriteAtBytes(f1, pos + 1, rest);
      forall i | 0 <= i < |data|
        ensures pos + i < |r| && r[pos + i] == data[i]
      {
        if i > 0 { assert rest[i - 1] == data[i]; }
      }
    }
  }

  /** Two writes back to back are one write of the concatenation: this is
      what lets a chunk loop be described by a single write. */
  lemma {:induction false} WriteAtConcat(file: seq<byte>, pos: nat, a: seq<byte>, b: seq<byte>)
    ensures WriteAt(WriteAt(file, pos, a), pos + |a|, b) == WriteAt(file, pos, a + b)
    decreases |a|
  {
    if |a| == 0 {
      assert a + b == b;
    } else {
      var f1 := Poke(file, pos, a[0]);
      assert (a + b)[0] == a[0] && (a + b)[1..] == a[1..] + b;
      WriteAtConcat(f1, pos + 1, a[1..], b);
    }
  }

  /** One more chunk of a stream, written where the previous ones ended. */
  lemma WriteNext(file: seq<byte>, start: nat, bytes: seq<byte>, pos: nat, n: nat, at: nat)
    requires pos + n <= |bytes| && at == start + pos
    ensures WriteAt(WriteAt(file, start, bytes[..pos]), at, bytes[pos..pos + n])
            == WriteAt(file, start, bytes[..pos + n])
  {
    assert bytes[..pos + n] == bytes[..pos] + bytes[pos..pos + n];
    WriteAtConcat(file, start, bytes[..pos], bytes[pos..pos + n]);
  }

  /** Writing the rest of `src` from `start` into a file that already holds
      `src[..start]` makes the file start with all of `src`; what the file
      held past `|src|` is kept. */
  lemma ResumedWrite(file: seq<byte>, src: seq<byte>, start: nat)
    requires start <= |src| && start <= |file| && file[..start] == src[..start]
    ensures |WriteAt(file, start, src[start..])| == Max(|file|, |src|)
    ensures WriteAt(file, start, src[start..])[..|src|] == src
    ensures |file| > |src| ==> WriteAt(file, start, src[start..])[|src|..] == file[|src|..]
  {
    var r := WriteAt(file, start, src[start..]);
    WriteAtBytes(file, start, src[start..]);
    if start < |src| {
      forall i | 0 <= i < |src|
        ensures r[i] == src[i]
      {
        if i < start {
          assert file[i] == file[..start][i];
        } else {
          assert src[start..][i - start] == src[i];
        }
      }
      assert r[..|src|] == src;
    } else {
      assert src[start..] == [];
      assert r == file;
      assert r[..|src|] == file[..start];
    }
  }

  // ---------------------------------------------------------------------------
  // Streams and chunking

  /** How an inbound stream ends once its bytes run out: a clean end of
      stream (`read` returns -1) or an I/O failure (`read` throws). */
  datatype StreamEnd = Eof | Fault

  /** The bytes a peer delivers for one transfer, and how the stream ends if
      the reader asks for more than that. */
  datatype Inbound = Inbound(bytes: seq<byte>, end: StreamEnd)

  /** The number of bytes the `k`-th read returns when `want` were asked
      for: `sizes` is an arbitrary schedule of positive read sizes (a read
      of a socket or file may return fewer bytes than asked), clamped into
      `[1, want]`; past the schedule reads are full. */
  function Grant(sizes: seq<nat>, k: nat, want: nat): (n: nat)
    requires want >= 1
    ensures 1 <= n <= want
  {
    if k >= |sizes| then want
    else if sizes[k] == 0 then 1
    else Min(sizes[k], want)
  }

  /** How many bytes a loop that starts at offset `start` and stops at the
      declared `size` copies from a source that has `avail` bytes. */
  function Copied(start: int, size: int, avail: nat): (n: nat)
    ensures n <= avail
    ensures start < size ==> start + n <= size
    ensures start >= size ==> n == 0
    ensures start < size && avail >= size - start ==> start + n == size
    ensures start < size && avail < size - start ==> n == avail
  {
    if start >= size then 0 else if avail <= size - start then avail else size - start
  }

  /** The offsets a loop records, one per chunk, starting from `start`:
      each is strictly larger than the one before (or than `start`), by at
      most `limit`, and the last one is `total` (which is `start` when there
      were no chunks). */
  predicate Chunked(start: int, limit: int, offsets: seq<int>, total: int)
    decreases |offsets|
  {
    if offsets == [] then total == start
    else
      var prev := if |offsets| == 1 then start else offsets[|offsets| - 2];
      && offsets[|offsets| - 1] == total
      && prev < total <= prev + limit
      && Chunked(start, limit, offsets[..|offsets| - 1], prev)
  }

  lemma ChunkedSnoc(start: int, limit: int, offsets: seq<int>, total: int, next: int)
    requires Chunked(start, limit, offsets, total)
    requires total < next <= total + limit
    ensures Chunked(start, limit, offsets + [next], next)
  {
    assert (offsets + [next])[..|offsets|] == offsets;
  }

  /** Every recorded offset lies above the start and at most at the total. */
  lemma {:induction false} ChunkedBounds(start: int, limit: int, offsets: seq<int>, total: int)
    requires Chunked(start, limit, offsets, total)
    ensures start <= total
    ensures offsets != [] ==> start < total
    ensures forall i :: 0 <= i < |offsets| ==> start < offsets[i] <= total
    decreases |offsets|
  {
    if offsets != [] {
      var init := offsets[..|offsets| - 1];
      var prev := if |offsets| == 1 then start else offsets[|offsets| - 2];
      ChunkedBounds(start, limit, init, prev);
      forall i | 0 <= i < |offsets|
        ensures start < offsets[i] <= total
      {
        if i < |init| { assert offsets[i] == init[i]; }
      }
    }
  }

  /** The offset before the `i`-th recorded one: `start` for the first. */
  function Previous(start: int, offsets: seq<int>, i: nat): int
    requires i < |offsets|
  {
    if i == 0 then start else offsets[i - 1]
  }

  /** Each recorded offset exceeds the one before it by at least 1 and at
      most `limit`. */
  lemma {:induction false} ChunkSteps(start: int, limit: int, offsets: seq<int>, total: int)
    requires Chunked(start, limit, offsets, total)
    ensures forall i :: 0 <= i < |offsets| ==>
              Previous(start, offsets, i) < offsets[i] <= Previous(start, offsets, i) + limit
    decreases |offsets|
  {
    if offsets != [] {
      var init := offsets[..|offsets| - 1];
      var prev := if |offsets| == 1 then start else offsets[|offsets| - 2];
      ChunkSteps(start, limit, init, prev);
      forall i | 0 <= i < |offsets|
        ensures Previous(start, offsets, i) < offsets[i] <= Previous(start, offsets, i) + limit
      {
        if i < |init| {
          assert offsets[i] == init[i];
          assert Previous(start, offsets, i) == Previous(start, init, i);
        }
      }
    }
  }

  /** The ledger after a loop that called `updateResumeState(key, o)` for
      each recorded offset `o` in turn: only the last update shows. */
  function Recorded(ledger: Ledger, key: string, offsets: seq<int>): (r: Ledger)
    ensures offsets == [] ==> r == ledger
    ensures offsets != [] ==> Get(r, key) == offsets[|offsets| - 1]
    ensures forall k :: k != key ==> Get(r, k) == Get(ledger, k)
  {
    if offsets == [] then ledger else Update(ledger, key, offsets[|offsets| - 1])
  }

  lemma RecordedSnoc(ledger: Ledger, key: string, offsets: seq<int>, next: int)
    ensures Update(Recorded(ledger, key, offsets), key, next) == Recorded(ledger, key, offsets + [next])
  {
  }

  // ---------------------------------------------------------------------------
  // The two loops, in closed form and as loops

  /** The outcome of a receiving loop: the file after the writes, the
      cumulative offset reached, the ledger after the per-chunk updates, and
      whether the stream failed before `size` bytes arrived. */
  datatype Received = Received(file: seq<byte>, total: int, ledger: Ledger, faulted: bool)

  /** The receiving loop in closed form: the copied prefix of the stream,
      written at `start`; the ledger holds the reached offset if any chunk
      arrived. `ReceiveLoop` shows that the loop ends here for every
      schedule of read sizes. */
  function Receive(file: seq<byte>, start: nat, size: int, src: Inbound,
                   ledger: Ledger, key: string): (r: Received)
    ensures start <= r.total <= Max(start, size) && r.total - start <= |src.bytes|
    ensures r.faulted <==> r.total < size && src.end == Fault
    ensures r.total == start ==> r.ledger == ledger
    ensures r.total > start ==> Get(r.ledger, key) == r.total
    ensures forall k :: k != key ==> Get(r.ledger, k) == Get(ledger, k)
  {
    var n := Copied(start, size, |src.bytes|);
    Received(WriteAt(file, start, src.bytes[..n]), start + n,
             if n > 0 then Update(ledger, key, start + n) else ledger,
             start < size && |src.bytes| < size - start && src.end == Fault)
  }

  /** The outcome of a sending loop: the bytes put on the wire, the offset
      reached and the ledger after the per-chunk updates. */
  datatype Sent = Sent(bytes: seq<byte>, total: int, ledger: Ledger)

  /** The sending loop in closed form (see `SendLoop`). */
  function Send(content: seq<byte>, start: nat, ledger: Ledger, key: string): (r: Sent)
    ensures start <= |content| ==> content[..start] + r.bytes == content
    ensures start >= |content| ==> r.bytes == [] && r.ledger == ledger
    ensures r.bytes != [] ==> Get(r.ledger, key) == r.total == |content|
    ensures forall k :: k != key ==> Get(r.ledger, k) == Get(ledger, k)
  {
    if start < |content| then Sent(content[start..], |content|, Update(ledger, key, |content|))
    else Sent([], start, ledger)
  }

  /** How far the receiving loop has got: `pos` bytes of the stream taken,
      the file as written so far, the running total (the file offset), the
      ledger and the offsets recorded so far, one per chunk. */
  datatype Progress = Progress(pos: nat, written: seq<byte>, total: nat, after: Ledger, offsets: seq<int>)

  /** The progress after one more chunk of `n` bytes. */
  function Advance(p: Progress, bytes: seq<byte>, key: string, n: nat): Progress
    requires p.pos + n <= |bytes|
  {
    Progress(p.pos + n, WriteAt(p.written, p.total, bytes[p.pos..p.pos + n]), p.total + n,
             Update(p.after, key, p.total + n), p.offsets + [p.total + n])
  }

  /** What holds after the receiving loop has taken `p.pos` bytes of `src`:
      they are written at `start`, the offsets trace them chunk by chunk
      without passing `size`, and the ledger holds the last offset. */
  predicate Receiving(file: seq<byte>, start: nat, size: int, src: Inbound, limit: nat,
                      ledger: Ledger, key: string, p: Progress)
  {
    && ReceivedBytes(file, start, size, src.bytes, p.pos, p.written, p.total)
    && ReceivedLog(start, size, limit, ledger, key, p.pos, p.total, p.after, p.offsets)
  }

  /** The byte side of `Receiving`: the first `pos` bytes are written at
      `start` and the total counts them. */
  predicate ReceivedBytes(file: seq<byte>, start: nat, size: int, bytes: seq<byte>, pos: nat,
                          written: seq<byte>, total: int)
  {
    && total == start + pos && pos <= |bytes|
    && (start < size ==> total <= size)
    && (start >= size ==> pos == 0)
    && written == WriteAt(file, start, bytes[..pos])
  }

  /** The ledger side of `Receiving`: one offset per chunk, none past `size`,
      and the ledger holds the last one. */
  predicate ReceivedLog(start: nat, size: int, limit: nat, ledger: Ledger, key: string, pos: nat,
                        total: int, after: Ledger, offsets: seq<int>)
  {
    && Chunked(start, limit, offsets, total)
    && (offsets != [] ==> total <= size)
    && (offsets != [] <==> pos > 0)
    && after == Recorded(ledger, key, offsets)
  }

  /** One chunk of `n` bytes keeps `Receiving`. */
  lemma ReceiveStep(file: seq<byte>, start: nat, size: int, src: Inbound, limit: nat,
                    ledger: Ledger, key: string, p: Progress, n: nat)
    requires Receiving(file, start, size, src, limit, ledger, key, p)
    requires p.total < size && 1 <= n <= limit && n <= size - p.total && p.pos + n <= |src.bytes|
    ensures Receiving(file, start, size, src, limit, ledger, key, Advance(p, src.bytes, key, n))
  {
    ReceiveStepBytes(file, start, size, src.bytes, key, p, n);
    ReceiveStepLog(start, size, limit, ledger, key, src.bytes, p, n);
  }

  lemma ReceiveStepBytes(file: seq<byte>, start: nat, size: int, bytes: seq<byte>, key: string,
                         p: Progress, n: nat)
    requires ReceivedBytes(file, start, size, bytes, p.pos, p.written, p.total)
    requires p.total < size && 1 <= n <= size - p.total && p.pos + n <= |bytes|
    ensures var q := Advance(p, bytes, key, n);
            ReceivedBytes(file, start, size, bytes, q.pos, q.written, q.total)
  {
    WriteNext(file, start, bytes, p.pos, n, p.total);
  }

  lemma ReceiveStepLog(start: nat, size: int, limit: nat, ledger: Ledger, key: string,
                       bytes: seq<byte>, p: Progress, n: nat)
    requires ReceivedLog(start, size, limit, ledger, key, p.pos, p.total, p.after, p.offsets)
    requires p.total < size && 1 <= n <= limit && n <= size - p.total && p.pos + n <= |bytes|
    ensures var q := Advance(p, bytes, key, n);
            ReceivedLog(start, size, limit, ledger, key, q.pos, q.total, q.after, q.offsets)
  {
    ChunkedSnoc(start, limit, p.offsets, p.total, p.total + n);
    RecordedSnoc(ledger, key, p.offsets, p.total + n);
  }

  /** Where the receiving loop stops: at the declared size, or where the
      stream's bytes run out. */
  lemma ReceiveDone(file: seq<byte>, start: nat, size: int, src: Inbound, limit: nat,
                    ledger: Ledger, key: string, p: Progress)
    requires Receiving(file, start, size, src, limit, ledger, key, p)
    requires p.total >= size || p.pos == |src.bytes|
    ensures p.pos == Copied(start, size, |src.bytes|)
    ensures Receive(file, start, size, src, ledger, key)
            == Received(p.written, p.total, p.after, start < size && |src.bytes| < size - start && src.end == Fault)
    ensures forall i :: 0 <= i < |p.offsets| ==> p.offsets[i] <= size
  {
    ChunkedBounds(start, limit, p.offsets, p.total);
  }

  /** The receiving loop (`handleUpload` on the server, `downloadFile` on the
      client): while fewer than `size` bytes are in, read at most
      `min(limit, size - total)` bytes, write them at the current offset,
      add them to the total and record the total in the ledger under `key`.
      A read at the end of the stream stops the loop (`Eof`) or throws
      (`Fault`, reported as `faulted`; what was written and recorded before
      stays). Whatever the read sizes, the result is one write of the
      copied prefix of the stream at `start`. */
  method ReceiveLoop(file: seq<byte>, start: nat, size: int, src: Inbound,
                     limit: nat, sizes: seq<nat>, ledger: Ledger, key: string)
    returns (written: seq<byte>, total: int, after: Ledger, offsets: seq<int>, faulted: bool)
    requires limit >= 1
    ensures Received(written, total, after, faulted) == Receive(file, start, size, src, ledger, key)
    ensures Chunked(start, limit, offsets, total)
    ensures forall i :: 0 <= i < |offsets| ==> offsets[i] <= size
    ensures after == Recorded(ledger, key, offsets)
  {
    var p := Progress(0, file, start, ledger, []);
    var k: nat := 0;
    faulted := false;
    while p.total < size
      invariant Receiving(file, start, size, src, limit, ledger, key, p)
      decreases size - p.total
    {
      if p.pos == |src.bytes| {
        faulted := src.end == Fault;
        break;
      }
      var n := Min(Grant(sizes, k, Min(limit, size - p.total)), |src.bytes| - p.pos);
      ReceiveStep(file, start, size, src, limit, ledger, key, p, n);
      p := Advance(p, src.bytes, key, n);
      k := k + 1;
    }
    ReceiveDone(file, start, size, src, limit, ledger, key, p);
    written, total, after, offsets := p.written, p.total, p.after, p.offsets;
  }

  /** `handleUpload`'s loop on the server, which reads into its 4096-byte
      buffer: every chunk it writes and records is at most 4096 bytes, and
      the loop as a whole is the closed form. */
  method ServerReceiveLoop(file: seq<byte>, start: nat, size: int, src: Inbound,
                           sizes: seq<nat>, ledger: Ledger, key: string)
    returns (written: seq<byte>, total: int, after: Ledger, offsets: seq<int>, faulted: bool)
    ensures Received(written, total, after, faulted) == Receive(file, start, size, src, ledger, key)
    ensures forall i :: 0 <= i < |offsets| ==>
              Previous(start, offsets, i) < offsets[i] <= Previous(start, offsets, i) + ServerBuffer
    ensures after == Recorded(ledger, key, offsets)
  {
    written, total, after, offsets, faulted := ReceiveLoop(file, start, size, src, ServerBuffer, sizes, ledger, key);
    ChunkSteps(start, ServerBuffer, offsets, total);
  }

  /** How far the sending loop has got: the bytes sent, the running total
      (the file offset), the ledger and the offsets recorded so far. */
  datatype Outgoing = Outgoing(sent: seq<byte>, total: int, after: Ledger, offsets: seq<int>)

  /** The state after sending `n` more bytes of `content`. */
  function SendMore(o: Outgoing, content: seq<byte>, key: string, n: nat): Outgoing
    requires 0 <= o.total && o.total + n <= |content|
  {
    Outgoing(o.sent + content[o.total..o.total + n], o.total + n,
             Update(o.after, key, o.total + n), o.offsets + [o.total + n])
  }

  /** What holds while the sending loop runs: the bytes from `start` up to
      the total are sent, one offset is recorded per chunk and the ledger
      holds the last one. */
  predicate Sending(content: seq<byte>, start: nat, limit: nat, ledger: Ledger, key: string, o: Outgoing) {
    && SentBytes(content, start, o.sent, o.total)
    && SentLog(start, limit, ledger, key, o.total, o.after, o.offsets)
  }

  predicate SentBytes(content: seq<byte>, start: nat, sent: seq<byte>, total: int) {
    && start <= total && (start < |content| ==> total <= |content|)
    && (start < |content| ==> sent == content[start..total])
    && (start >= |content| ==> sent == [] && total == start)
  }

  predicate SentLog(start: nat, limit: nat, ledger: Ledger, key: string, total: int,
                    after: Ledger, offsets: seq<int>)
  {
    && Chunked(start, limit, offsets, total)
    && (offsets != [] <==> total > start)
    && after == Recorded(ledger, key, offsets)
  }

  /** One chunk of `n` bytes keeps `Sending`. */
  lemma SendStep(content: seq<byte>, start: nat, limit: nat, ledger: Ledger, key: string,
                 o: Outgoing, n: nat)
    requires Sending(content, start, limit, ledger, key, o)
    requires o.total < |content| && 1 <= n <= limit && n <= |content| - o.total
    ensures Sending(content, start, limit, ledger, key, SendMore(o, content, key, n))
  {
    SendStepBytes(content, start, key, o, n);
    SendStepLog(content, start, limit, ledger, key, o, n);
  }

  lemma SendStepBytes(content: seq<byte>, start: nat, key: string, o: Outgoing, n: nat)
    requires SentBytes(content, start, o.sent, o.total)
    requires o.total < |content| && 1 <= n <= |content| - o.total
    ensures var q := SendMore(o, content, key, n);
            SentBytes(content, start, q.sent, q.total)
  {
    assert content[start..o.total + n] == content[start..o.total] + content[o.total..o.total + n];
  }

  lemma SendStepLog(content: seq<byte>, start: nat, limit: nat, ledger: Ledger, key: string,
                    o: Outgoing, n: nat)
    requires SentLog(start, limit, ledger, key, o.total, o.after, o.offsets)
    requires 0 <= o.total && 1 <= n <= limit && o.total + n <= |content|
    ensures var q := SendMore(o, content, key, n);
            SentLog(start, limit, ledger, key, q.total, q.after, q.offsets)
  {
    ChunkedSnoc(start, limit, o.offsets, o.total, o.total + n);
    RecordedSnoc(ledger, key, o.offsets, o.total + n);
  }

  /** Where the sending loop stops: at the end of the content, having sent
      what the closed form says. */
  lemma SendDone(content: seq<byte>, start: nat, limit: nat, ledger: Ledger, key: string, o: Outgoing)
    requires Sending(content, start, limit, ledger, key, o)
    requires o.total >= |content|
    ensures Sent(o.sent, o.total, o.after) == Send(content, start, ledger, key)
  {
    if start < |content| {
      assert content[start..o.total] == content[start..];
    }
  }

  /** The sending loop (`handleDownload` on the server, `uploadFile` on the
      client): the declared size is the file's own length, so the reads never
      meet the end of the file and the loop sends exactly the bytes from
      `start` on, in chunks of at most `limit`, recording each cumulative
      total under `key`. */
  method SendLoop(content: seq<byte>, start: nat, limit: nat, sizes: seq<nat>,
                  ledger: Ledger, key: string)
    returns (sent: seq<byte>, total: int, after: Ledger, offsets: seq<int>)
    requires limit >= 1
    ensures Sent(sent, total, after) == Send(content, start, ledger, key)
    ensures Chunked(start, limit, offsets, total)
    ensures after == Recorded(ledger, key, offsets)
  {
    var o := Outgoing([], start, ledger, []);
    var k: nat := 0;
    while o.total < |content|
      invariant Sending(content, start, limit, ledger, key, o)
      decreases |content| - o.total
    {
      var n := Grant(sizes, k, Min(limit, |content| - o.total));
      SendStep(content, start, limit, ledger, key, o, n);
      o := SendMore(o, content, key, n);
      k := k + 1;
    }
    SendDone(content, start, limit, ledger, key, o);
    sent, total, after, offsets := o.sent, o.total, o.after, o.offsets;
  }
}
